=== FILE: README.md ===
# Free-name analysis of no-more-imports, in Dafny

`no-more-imports` lets a Python module use names it never imports. Before
the module runs, the package walks its syntax tree and collects every name
that is read but bound nowhere in scope: `random.randint`, `os.path.join`,
a bare `randint` seen earlier as a member. It then writes a preamble of
`import m` statements and `alias = m.member` assignments that binds them.

This project models the analysis at the heart of the package, in two
versions that are kept apart:

- `src/no_more_imports/ast.py`, the current one. It covers the `Name`
  symbol, the `NameCollection` merge rule, the `NameVisitor` scope tracker
  with its `ChainMap` of frames, `flatten_attribute`, `parse_names` and the
  frontmatter builders.
- `src/lazy_import/ast.py`, the older one that `tests/test_ast.py` imports.
  It has a different split rule, a different membership test and a
  different merge rule. Its visitor never looks inside a function body and
  pops a frame only at `return`.

Layout:

| file | module | what it holds |
|---|---|---|
| `wrappers.dfy` | `Wrappers` | `Option`, the exceptions the code raises, `Result` |
| `dotted.dfy` | `Dotted` | `str.split`/`str.join` on the dot, and `rsplit(".", maxsplit=1)` |
| `syntax.dfy` | `Syntax` | the Python syntax tree, cut down to the node kinds the visitors dispatch on; children in field order |
| `scopes.dfy` | `Scopes` | a `ChainMap` as a non-empty sequence of frames (innermost last): lookup, store, `del`, `new_child`, `parents` |
| `symbols.dfy` | `Symbols` | the current `Name` and `NameCollection` (a class whose `Add` updates the list in place) |
| `free_names.dfy` | `FreeNames` | the current visitor as pure functions from one visitor state to the next |
| `name_visitor.dfy` | `NameVisitors` | the current `NameVisitor` as a class, each method proved to reach what `FreeNames` computes |
| `free_name_properties.dfy` | `FreeNameProperties` | scoping, flattening, distinctness and forward-reference lemmas about `FreeNames` |
| `frontmatter.dfy` | `Frontmatter` | `generate_frontmatter` and its two modes |
| `lazy_symbols.dfy` | `LazySymbols` | the older `Name` and `NameCollection` |
| `lazy_free_names.dfy` | `LazyFreeNames` | the older visitor as pure functions |
| `lazy_visitor.dfy` | `LazyVisitors` | the older `NameVisitor` as a class |
| `lazy_properties.dfy` | `LazyProperties` | lemmas about the older visitor, and how it differs from the current one |

Python raises instead of returning in several places. The model returns a
`Result` there:

- `del` of a name that is bound only in an outer frame raises `KeyError`.
- `.func.id` on a call of something other than a plain name, and `.id` on a
  loop or comprehension target that is not a name, raise `AttributeError`.
- A chain whose inner part flattens to `None` raises `TypeError` when it is
  joined.

Where the code behaves differently from what a reader might expect of a
free-name analysis, the model follows the code:

- Attribute flattening can raise, in the two cases above; it does not
  simply give up on an unusual chain.
- A function's return annotation is read before the function's name is
  bound (`src/no_more_imports/ast.py:151-155`), so `def f() -> f.T`
  records `f.T` on entry. The function's own `pop_ctx` retracts the entry
  again, because `f` is bound in the module frame by then, so the result
  is the same as with the opposite order
  (`FreeNameProperties.SelfAnnotationRetracted`).
  `FreeNames.EnterFunction` keeps the code's order.
- `del` does not unbind a name from the first frame that holds it:
  `ChainMap.__delitem__` only deletes from the innermost frame, and raises
  otherwise (`Scopes.Delete`).
- Names bound in a class body are visible to the functions nested in it,
  unlike Python's own scoping: the code pushes an ordinary `ChainMap`
  frame for the class body (`src/no_more_imports/ast.py:197-203`), so a
  nested function sees them like any enclosing binding. The model does
  the same.
- The docstring of `filter_fake_names`
  (`src/no_more_imports/ast.py:248-251`) says module-level definitions are
  removed from the fake names, so that forward references are allowed.
  The code filters only when a frame is popped, and the module frame is
  never popped. See "Findings".

## Model

The functions of `FreeNames` and `LazyFreeNames` (`Visit`, `VisitAll`,
`Parse`, `ParseResolved`, `PopCtx`, `FlattenAttribute`, `Flatten` and the
rest) are the specifications that the class methods below are proved to
follow step for step. What they promise about the source is stated by the
lemmas in the table: `FlattenByRoot` for `flatten_attribute`, `Scoped…`
and `Visit…` for the traversal, `InDictMeansDottedPrefixBound` for
`Name.in_dict`, `SegmentsJoinToId` and `FromStr` for `Name.id`.

| member | source | states |
|---|---|---|
| Symbols.FromStrContainsItself | src/no_more_imports/ast.py:15-18 | `in` matches the string a name was built from, dotted or not |
| Symbols.Name.Parts | src/no_more_imports/ast.py:27-44 | one entry per dotted segment of the module, plus one for a non-empty member; each entry is a prefix of the next |
| Symbols.PrefixesGrowByOneSegment | src/no_more_imports/ast.py:29-44 | each entry of `parts` is the one before it, a dot and the next segment |
| Symbols.FromStr | src/no_more_imports/ast.py:53-58 | no aliases; `from_str(s).id == s` for every `s`; the member is absent iff `s` has no dot, and it never contains a dot |
| Symbols.FromStrSplitsAtLastDot | src/no_more_imports/ast.py:53-58 | a string is split at its last dot only: the module keeps every earlier dot |
| Symbols.PrefixesAreDottedPrefixes | src/no_more_imports/ast.py:41-44 | the entries of `parts` are exactly the prefixes of the id that end at a dot or at the end |
| Symbols.InDictMeansDottedPrefixBound | src/no_more_imports/ast.py:27-47 | the last entry of `parts` is the id, and `in_dict(c)` holds iff some dotted prefix of the id is in `c` |
| Symbols.SegmentsJoinToId | src/no_more_imports/ast.py:20-25 | the segments are dot-free and join back to the id |
| Symbols.Added | src/no_more_imports/ast.py:66-80 | `add` appends at most one entry, and only the new name itself at the end; existing entries keep their module, member and position and only gain aliases |
| Symbols.AddedActsAtFirstStop | src/no_more_imports/ast.py:70-80 | `add` acts at the first entry whose member is the new bare name (adds an alias) or whose module equals the new module (does nothing); with no such entry it appends |
| Symbols.AddedKeepsModulesDistinct | src/no_more_imports/ast.py:70-80 | `add` keeps the entries' modules pairwise distinct |
| Symbols.NameCollection.constructor | src/no_more_imports/ast.py:64 | a new collection is empty |
| Symbols.NameCollection.Add | src/no_more_imports/ast.py:66-80 | the loop leaves the list as `Added` says: the first stop entry's aliases grow, or the name is appended |
| Scopes.Keys | src/no_more_imports/ast.py:120-122 | a key is in the chain iff some frame holds it |
| Scopes.Bind | src/no_more_imports/ast.py:117 | a store writes to the innermost frame only: outer frames are unchanged and the key becomes bound |
| Scopes.Delete | src/no_more_imports/ast.py:122-123 | `del` succeeds iff the key is in the innermost frame and removes it only from there; otherwise it raises `KeyError` |
| Scopes.NewChild | src/no_more_imports/ast.py:99-100 | `new_child` adds an empty innermost frame and binds nothing new |
| FreeNames.Unbound | src/no_more_imports/ast.py:247-254 | an entry survives the filter iff its module string is bound in no frame; the list never grows |
| NameVisitors.NameVisitor.constructor | src/no_more_imports/ast.py:91-93 | a frame holding `self` in front of the builtins frame, and no fake names |
| NameVisitors.NameVisitor.PushCtx | src/no_more_imports/ast.py:99-100 | the frames become `new_child()` of the old ones |
| NameVisitors.NameVisitor.PopCtx | src/no_more_imports/ast.py:95-97 | drops the innermost frame, then filters the fake names |
| NameVisitors.NameVisitor.FilterFakeNames | src/no_more_imports/ast.py:247-254 | the list becomes the entries whose module is unbound, in order |
| NameVisitors.NameVisitor.SetName | src/no_more_imports/ast.py:117 | `real_names[key] = node` binds in the innermost frame |
| NameVisitors.NameVisitor.NoteRead | src/no_more_imports/ast.py:119-121 | a read is added to the collection only when no prefix of it is bound |
| NameVisitors.NameVisitor.DeleteIfBound | src/no_more_imports/ast.py:122-123 | deletes a bound key, raising `KeyError` when it is bound only in an outer frame |
| NameVisitors.NameVisitor.VisitImport | src/no_more_imports/ast.py:102-111 | the loop binds each alias's `asname`, or its name when there is none |
| NameVisitors.NameVisitor.VisitName | src/no_more_imports/ast.py:113-126 | a name node is stored, read or deleted according to its context |
| NameVisitors.NameVisitor.VisitAttribute | src/no_more_imports/ast.py:128-144 | a chain that flattens to `None` changes nothing; otherwise the flattened string is stored, read or deleted |
| NameVisitors.NameVisitor.HandleAnnotation | src/no_more_imports/ast.py:174-188 | an attribute chain or a string constant is read; `None` and other node kinds are skipped; other constants raise |
| NameVisitors.NameVisitor.BindTargets | src/no_more_imports/ast.py:207-212 | the loop binds every target identifier in the innermost frame |
| FreeNameProperties.BindAliasesGrows | src/no_more_imports/ast.py:102-107 | an import binds each alias's `asname`, or its name when the `asname` is missing or empty, in the current frame, and removes nothing |
| NameVisitors.NameVisitor.BindArg | src/no_more_imports/ast.py:161-163 | one parameter is bound in the innermost frame, then its annotation, if any, is read |
| NameVisitors.NameVisitor.BindArgs | src/no_more_imports/ast.py:160-163 | each parameter is bound and then its annotation is read, in order, stopping at the first exception |
| NameVisitors.NameVisitor.EnterFunction | src/no_more_imports/ast.py:151-167 | return annotation first, then the name in the enclosing frame, then a new frame holding `args`, `vararg`, `kwarg` |
| NameVisitors.NameVisitor.VisitFunctionDef | src/no_more_imports/ast.py:146-172 | functions, async functions and lambdas enter, visit their children and pop |
| NameVisitors.NameVisitor.VisitClassDef | src/no_more_imports/ast.py:197-203 | binds the class name outside, then pushes, visits and pops |
| NameVisitors.NameVisitor.VisitListComp | src/no_more_imports/ast.py:205-227 | the four comprehension kinds push, bind every generator target, visit and pop |
| NameVisitors.NameVisitor.VisitFor | src/no_more_imports/ast.py:229-238 | binds the loop target without pushing, then visits |
| NameVisitors.NameVisitor.VisitExceptHandler | src/no_more_imports/ast.py:240-245 | pushes, binds the handler name when it is non-empty (`if node.name:`), visits and pops |
| NameVisitors.NameVisitor.Visit | src/no_more_imports/ast.py:86-245 | dispatch on the node kind, proved against the whole pure traversal |
| NameVisitors.ParseNames | src/no_more_imports/ast.py:256-263 | returns the collection exactly as the visit left it |
| NameVisitors.ParseNamesResolved | src/no_more_imports/ast.py:247-263 | the corrected entry point: one more filter after the visit |
| FreeNameProperties.FlattenByRoot | src/no_more_imports/ast.py:318-324 | a name root gives every identifier joined by dots; a call of a plain name gives that name followed by the attributes after the first one (`f().a.b` gives `f.b`); a call of anything else raises `AttributeError`; any other root gives `None` for `x.attr` and raises `TypeError` for a longer chain |
| FreeNameProperties.AttributeReadSplitsAtLastDot | src/no_more_imports/ast.py:134-137 | a free read of `a.b.c` records module `a.b` and member `c` |
| FreeNameProperties.VisitNameByContext | src/no_more_imports/ast.py:113-126 | Store binds in the innermost frame; Load leaves the list alone iff a dotted prefix is bound, else adds the name; Del succeeds iff the name is unbound or in the innermost frame |
| FreeNameProperties.BoundNameIsNotFree | src/no_more_imports/ast.py:118-121 | reading a bound plain name changes nothing |
| FreeNameProperties.AttributeOfBoundRootRecordsNothing | src/no_more_imports/ast.py:134-137 | reading `root.attr` changes nothing once `root` is bound: `in_dict` finds the first part |
| FreeNameProperties.BindArgsBinds | src/no_more_imports/ast.py:158-163 | the loop over `args.args` adds exactly the parameter names to the innermost frame; the fake names only grow, and are unchanged when no parameter is annotated |
| FreeNameProperties.EnterFunctionFrames | src/no_more_imports/ast.py:151-167 | entering a function adds exactly one frame, holding exactly `args`, `vararg` and `kwarg`; the frames outside it are the old ones with only the function's name bound; the return annotation is read in the enclosing scope before any parameter is bound |
| FreeNameProperties.SelfAnnotationRetracted | src/no_more_imports/ast.py:151-155 | `def f() -> f.T` records `f.T` on entry, since `f` is not bound yet, and the function's own pop retracts it, so parsing returns nothing |
| FreeNameProperties.VisitScoping | src/no_more_imports/ast.py:95-100 | a visit never changes the frames outside the current one, and without `del` it only adds bindings |
| FreeNameProperties.ScopedNodes | src/no_more_imports/ast.py:146-245 | a function, lambda, class, comprehension or handler leaves the frames as they were except for the name it binds outside, and every recorded name is unbound afterwards |
| FreeNameProperties.BindGeneratorsGrows | src/no_more_imports/ast.py:207-212 | every target id of every generator, a tuple's elements included, is bound in the innermost frame; the outer frames are unchanged and nothing is unbound |
| FreeNameProperties.EnteredFrames | src/no_more_imports/ast.py:146-245 | after a scoped node's prologue the enclosing frames gain only a function's or class's name; the new frame holds every comprehension target, or the handler's name exactly when it is non-empty, and a class's starts empty |
| FreeNameProperties.ComprehensionReadsItsTargets | src/no_more_imports/ast.py:205-214 | in `[y for y in ys]` the element is visited inside the comprehension's frame after the targets are bound, so the read of `y` records nothing and the visit is as if the element were absent |
| FreeNameProperties.HandlerReadsItsName | src/no_more_imports/ast.py:240-245 | inside `except E as e:` a read of `e` records nothing |
| FreeNameProperties.EmptyHandlerNameBindsNothing | src/no_more_imports/ast.py:242-243 | an empty handler name is skipped by `if node.name:`, so a read of `""` in the body is recorded and survives the pop |
| FreeNameProperties.LoopTargetsOutliveLoop | src/no_more_imports/ast.py:229-238 | after a `for` loop its targets are bound in the current frame, and reading one of them records nothing |
| FreeNameProperties.UnboundAppend | src/no_more_imports/ast.py:252-254 | the filter keeps the relative order: it distributes over concatenation |
| FreeNameProperties.UnboundKeepsUnbound | src/no_more_imports/ast.py:252-254 | a list with no bound module is left unchanged |
| FreeNameProperties.UnboundKeepsDistinct | src/no_more_imports/ast.py:252-254 | filtering keeps modules pairwise distinct |
| FreeNameProperties.VisitKeepsDistinct | src/no_more_imports/ast.py:66-80 | every visit keeps the recorded modules pairwise distinct |
| FreeNameProperties.ParsedModulesAreDistinct | src/no_more_imports/ast.py:256-263 | the result of parsing lists each module once |
| FreeNameProperties.ResolvedNamesAreUnboundAtModuleLevel | src/no_more_imports/ast.py:247-263 | with the final filter, every returned module is unbound after every prefix of the module's statements |
| FreeNameProperties.ParseKeepsForwardReference | src/no_more_imports/ast.py:256-263 | as written, `def f(): return g` then `g = 1` returns `g` although `g` is bound at module level |
| Frontmatter.Dedup | src/no_more_imports/ast.py:290 | `dict.fromkeys`: the same elements, each once |
| Frontmatter.DedupFirstSeenOrder | src/no_more_imports/ast.py:290 | the kept elements are in order of first occurrence |
| Frontmatter.DedupOfDistinct | src/no_more_imports/ast.py:290 | a list without repeats is kept as it is |
| Frontmatter.ModulesAreEntryModules | src/no_more_imports/ast.py:290-292 | a module is imported iff some entry has it |
| Frontmatter.GenerateFrontmatter | src/no_more_imports/ast.py:277-286 | `"ast"` gives the statements, `"str"` gives the same statements rendered and joined by newlines, any other mode raises `ValueError` |
| Frontmatter.StrMatchesAst | src/no_more_imports/ast.py:306-315 | the text mode is the statement mode rendered line by line |
| Frontmatter.AssignmentsAreAliasBindings | src/no_more_imports/ast.py:294-301 | `t = s` is emitted iff some entry has alias `t` and id `s` |
| Frontmatter.FrontmatterShape | src/no_more_imports/ast.py:289-303 | one import per distinct module in first-seen order, then only assignments, one per alias |
| Frontmatter.ImportsFollowEntries | src/no_more_imports/ast.py:289-292 | for a list with distinct modules, the imports follow the entries one for one |
| LazySymbols.FromStr | src/lazy_import/ast.py:24-29 | no aliases; the member is absent iff there is no dot, and then the module is the whole string; otherwise module and member are dot-free and `module.member` starts the string |
| LazySymbols.FromStrKeepsFirstTwo | src/lazy_import/ast.py:24-29 | a dotted string gives its first two pieces, whatever follows |
| LazySymbols.ThreePieces | src/lazy_import/ast.py:24-29 | `"a.b.c"` gives module `a` and member `b` |
| LazySymbols.DottedIdNotContained | src/lazy_import/ast.py:13-18 | `in` never matches the dotted string a name was built from |
| LazySymbols.ContainsDiffers | src/lazy_import/ast.py:13-18 | for a dotted string, the newer `in` matches the name built from it and the older one does not |
| LazySymbols.Added | src/lazy_import/ast.py:36-41 | `add` either appends `from_str(id)` or keeps the length; entries keep module and member and only gain aliases |
| LazySymbols.AddedActsAtFirstHit | src/lazy_import/ast.py:36-41 | the first entry containing the identifier takes it as an alias; if there is none, `from_str(id)` is appended |
| LazySymbols.ModulesCanRepeat | src/lazy_import/ast.py:36-41 | reading `m.a` then `m.b` (or `m.a` twice) lists `m` twice |
| LazySymbols.NameCollection.constructor | src/lazy_import/ast.py:34 | a new collection is empty |
| LazySymbols.NameCollection.Add | src/lazy_import/ast.py:36-41 | the loop leaves the list as `Added` says |
| LazyVisitors.NameVisitor.constructor | src/lazy_import/ast.py:48-50 | one empty frame and no fake names |
| LazyVisitors.NameVisitor.PushCtx | src/lazy_import/ast.py:55-56 | `new_child` |
| LazyVisitors.NameVisitor.PopCtx | src/lazy_import/ast.py:52-53 | `parents`, with no filtering |
| LazyVisitors.NameVisitor.SetName | src/lazy_import/ast.py:72 | binds in the innermost frame |
| LazyVisitors.NameVisitor.DeleteIfBound | src/lazy_import/ast.py:75-76 | deletes a bound key, raising `KeyError` when it is bound only in an outer frame |
| LazyVisitors.NameVisitor.VisitImport | src/lazy_import/ast.py:58-66 | binds each alias's `asname` or name |
| LazyVisitors.NameVisitor.VisitName | src/lazy_import/ast.py:69-79 | a name node is stored, added when bound in no frame, or deleted when bound |
| LazyVisitors.NameVisitor.VisitAttribute | src/lazy_import/ast.py:81-92 | the whole flattened string is looked up, stored or deleted |
| LazyVisitors.NameVisitor.VisitFunctionDef | src/lazy_import/ast.py:94-104 | pushes one frame and binds `args`, `vararg`, `kwarg` |
| LazyVisitors.NameVisitor.VisitFrameNode | src/lazy_import/ast.py:94-116 | a plain function pushes and binds its parameters, an async function or a class only pushes, a `return` only pops; none of them raises or records a name |
| LazyVisitors.NameVisitor.GenericVisit | src/lazy_import/ast.py:43 | children are visited in field order, stopping at the first exception |
| LazyVisitors.NameVisitor.Visit | src/lazy_import/ast.py:58-116 | dispatch on the node kind, proved against the whole pure traversal |
| LazyVisitors.FakeNames | tests/test_ast.py:39-42 | visiting a tree and reading `fake_names` gives what `LazyFreeNames.FakeNames` computes |
| LazyProperties.FlattenByRoot | src/lazy_import/ast.py:119-123 | a name-rooted chain gives the identifiers joined by dots; any other root, a call included, gives `None` for `x.attr` and raises `TypeError` for a longer chain |
| LazyProperties.VisitNameByContext | src/lazy_import/ast.py:69-79 | Store binds in the innermost frame; Load adds iff the name is in no frame; Del deletes only a bound name |
| LazyProperties.BindAliasesBinds | src/lazy_import/ast.py:58-62 | an import binds each alias's `asname`, or its name when the `asname` is missing or empty, in the current frame; the enclosing frames are unchanged |
| LazyProperties.BoundRootDoesNotHideAttribute | src/lazy_import/ast.py:81-85 | with `x` bound, reading `x.y` is still recorded, where the current visitor records nothing |
| LazyProperties.VisitNeverRetracts | src/lazy_import/ast.py:36-53 | no visit removes or reorders a recorded entry |
| LazyProperties.FunctionDefSkipsBody | src/lazy_import/ast.py:94-104 | a function adds one frame, binds its parameters, records nothing, and its body, decorators and return annotation make no difference |
| LazyProperties.ReturnOnlyPops | src/lazy_import/ast.py:114-116 | `return` drops a frame and ignores its value |
| LazyProperties.ParameterOutlivesFunction | src/lazy_import/ast.py:94-116 | after a function with parameter `x` and no `return`, a module-level read of `x` is not recorded, while the current visitor records it |

## Left out

- The import hooks in `src/no_more_imports/importer.py` and
  `src/lazy_import/importer.py` are not part of this model. They probe the
  filesystem, walk interpreter frames, execute code and install packages.
- `ast.parse` is not modelled. The model starts from a tree.
- The host builtins dictionary is a parameter (`builtins`) of the current
  visitor's constructor, and `sys.stdlib_module_names` is not used.
- The values stored in `real_names` (the binding nodes) are not modelled;
  only which keys are bound matters to the analysis.
- `Name.from_ast_name` is folded into `from_str` of the node's identifier,
  and `NameCollection.__iter__` is the `names` field.
- Alias sets are Python sets. The model fixes an arbitrary enumeration
  order for them (`Frontmatter.AliasOrder`), so the frontmatter builders are
  ghost functions. The order of the assignments within one entry is
  therefore not specified.
- The frontmatter returns `ast.Import`/`ast.Assign` nodes; the model keeps
  only the module of an import and the target and source of an assignment.
- An alias added to an entry changes the entry object in place. The model
  replaces the entry in the list, which is the same thing because entries
  are never shared.
- Frontmatter.GenerateFrontmatter: `mode` has no default value. A caller
  that omits it (`src/no_more_imports/importer.py:40`) gets the `"ast"`
  mode, which is `GenerateFrontmatter(names, "ast")` here.
- The exceptions carry no message, except the attribute name of an
  `AttributeError`.
- `FreeNames.HandleAnnotation`: a `bytes` constant annotation raises
  `TypeError` in Python (bytes `rsplit` with a `str` separator). The model
  has one kind of non-string constant, which raises `AttributeError`.
- The `TypeError` built but never raised in `_handle_annotation` is not
  modelled: other annotations are skipped, as in the code.
- The `ValueError` for a context that is not Load, Store or Del cannot
  arise, because the model's `Context` has only those three.
- Positional-only and keyword-only parameters are not bound by either
  visitor, as in the code. The model keeps that behaviour.
- The older `NameCollection.names` defaults to a `set`, which has no
  `append`, so the first free read of the older visitor fails in Python.
  The model treats the field as the list it is declared to be.
- The older `visit_Attribute` passes a `Name` to `add`, which reads its
  `.id`, an attribute the older `Name` does not have. The model passes the
  flattened string, which is what `add` is written to take.
- LazyVisitors.NameVisitor.VisitName, LazyVisitors.NameVisitor.VisitAttribute:
  the older visitor compares `ctx` with freshly built `ast.Store()`,
  `ast.Load()` and `ast.Del()` nodes. Syntax nodes compare by identity, so
  as written every branch test fails, the final `not in` test succeeds, and
  the first name or attribute visited raises `ValueError`
  (`src/lazy_import/ast.py:71-79`, `83-92`). The model reads the
  comparisons as a test of the context's kind, which is what they are
  written to do.

## Findings

| source | as written | input that shows it | evidently intended | confidence | as-written member | corrected member |
|---|---|---|---|---|---|---|
| src/no_more_imports/ast.py:256-263 | `parse_names` returns the fake names without a last `filter_fake_names`; the module frame is never popped, so a name read inside a function and bound later at module level stays in the result | `def f(): return g` followed by `g = 1` returns `[Name("g")]` | forward references to module-level definitions are retracted (the docstring of `filter_fake_names` says so), so the result is empty | not executed | FreeNameProperties.ParseKeepsForwardReference | FreeNameProperties.ResolvedNamesAreUnboundAtModuleLevel |

=== FILE: dotted.dfy ===
/** Dotted names as Python's `str.split` and `str.join` see them. */
module Dotted {
  import opened Wrappers

  const Dot: char := '.'

  /** `sep.join(parts)`. */
  function Join(parts: seq<string>, sep: char): string {
    if |parts| == 0 then ""
    else if |parts| == 1 then parts[0]
    else parts[0] + [sep] + Join(parts[1..], sep)
  }

  /** `s.split(sep)`: the pieces between separators, empty pieces included. */
  function Split(s: string, sep: char): (parts: seq<string>)
    ensures |parts| >= 1
    ensures forall i :: 0 <= i < |parts| ==> sep !in parts[i]
    ensures Join(parts, sep) == s
    ensures |parts| == 1 <==> sep !in s
  {
    if s == [] then [[]]
    else
      var rest := Split(s[1..], sep);
      assert s == [s[0]] + s[1..];
      if s[0] == sep then
        assert ([[]] + rest)[1..] == rest;
        [[]] + rest
      else
        ExtendFirstPiece(s[0], rest, sep);
        [[s[0]] + rest[0]] + rest[1..]
  }

  /** Prefixing a non-separator to the first piece prefixes it to the join. */
  lemma ExtendFirstPiece(c: char, rest: seq<string>, sep: char)
    requires c != sep && |rest| >= 1
    requires forall i :: 0 <= i < |rest| ==> sep !in rest[i]
    ensures var parts := [[c] + rest[0]] + rest[1..];
      |parts| == |rest|
      && (forall i :: 0 <= i < |parts| ==> sep !in parts[i])
      && Join(parts, sep) == [c] + Join(rest, sep)
  {
    var parts := [[c] + rest[0]] + rest[1..];
    assert parts[1..] == rest[1..];
    forall i | 0 <= i < |parts| ensures sep !in parts[i] {
      if i > 0 {
        assert parts[i] == rest[i];
      }
    }
    if |rest| > 1 {
      assert Join(parts, sep) == ([c] + rest[0]) + [sep] + Join(rest[1..], sep);
    }
  }

  /** The position of the last occurrence of `c` in `s`, if any. */
  function LastIndexOf(s: string, c: char): (r: Option<nat>)
    ensures r.None? <==> c !in s
    ensures r.Some? ==> r.value < |s| && s[r.value] == c && c !in s[r.value + 1..]
  {
    var r := LastIndexBelow(s, c, |s|);
    if r.Some? then
      var tail := s[r.value + 1..];
      assert forall j :: 0 <= j < |tail| ==> tail[j] == s[r.value + 1 + j];
      r
    else r
  }

  /** The position of the last occurrence of `c` among the first `k` characters of `s`. */
  function LastIndexBelow(s: string, c: char, k: nat): (r: Option<nat>)
    requires k <= |s|
    ensures r.None? <==> forall j :: 0 <= j < k ==> s[j] != c
    ensures r.Some? ==> r.value < k && s[r.value] == c && forall j :: r.value < j < k ==> s[j] != c
  {
    if k == 0 then None
    else if s[k - 1] == c then Some(k - 1)
    else LastIndexBelow(s, c, k - 1)
  }

  /** Joining one more piece adds a separator and the piece. */
  lemma {:induction false} JoinSnoc(parts: seq<string>, x: string, sep: char)
    requires |parts| >= 1
    ensures Join(parts + [x], sep) == Join(parts, sep) + [sep] + x
  {
    if |parts| > 1 {
      assert (parts + [x])[1..] == parts[1..] + [x];
      JoinSnoc(parts[1..], x, sep);
    }
  }

  /** Splitting a join of separator-free pieces gives the pieces back. */
  lemma {:induction false} SplitJoin(parts: seq<string>, sep: char)
    requires |parts| >= 1
    requires forall i :: 0 <= i < |parts| ==> sep !in parts[i]
    ensures Split(Join(parts, sep), sep) == parts
  {
    if |parts| > 1 {
      SplitJoin(parts[1..], sep);
      SplitPrefix(parts[0], Join(parts[1..], sep), sep);
    }
  }

  /** Splitting `head + sep + tail` with `head` separator-free. */
  lemma {:induction false} SplitPrefix(head: string, tail: string, sep: char)
    requires sep !in head
    ensures Split(head + [sep] + tail, sep) == [head] + Split(tail, sep)
  {
    if head != [] {
      assert (head + [sep] + tail)[1..] == head[1..] + [sep] + tail;
      SplitPrefix(head[1..], tail, sep);
      assert [head[0]] + head[1..] == head;
    } else {
      assert (head + [sep] + tail)[1..] == tail;
    }
  }

  /** A join of two or more pieces starts with the first two, then a separator or nothing. */
  lemma JoinFirstTwo(parts: seq<string>, sep: char)
    requires |parts| >= 2
    ensures var head := parts[0] + [sep] + parts[1];
      var s := Join(parts, sep);
      head <= s && (|head| == |s| || s[|head|] == sep)
  {
    var rest := Join(parts[1..], sep);
    if |parts| > 2 {
      assert parts[1..][1..] == parts[2..];
      assert rest == parts[1] + [sep] + Join(parts[2..], sep);
    }
  }
}

=== FILE: free_name_properties.dfy ===
/**
 * What the free-name analysis promises, proved about the functions of
 * `FreeNames`: how attribute chains flatten and split, which frames a visit
 * may change, what scopes leak, and the invariants of the fake-name list.
 */
module FreeNameProperties {
  import opened Wrappers
  import opened Dotted
  import opened Symbols
  import opened Syntax
  import opened Scopes
  import opened FreeNames

  // ---------------------------------------------------------------------
  // Attribute chains

  /** The node an attribute chain hangs from. */
  function Root(n: Node): Node {
    if n.Attribute? then Root(n.value) else n
  }

  /** The attribute names between the root and `n`, innermost first. */
  function AttrsAbove(n: Node): seq<string> {
    if n.Attribute? then AttrsAbove(n.value) + [n.attr] else []
  }

  /**
   * `flatten_attribute(value.attr)`, by the root of the chain: a name root
   * gives every identifier joined by dots; a call of a plain name gives that
   * name followed by the attributes after the first one (so `f().a` gives
   * `f`); a call of anything else raises; any other root gives `None` for
   * `x.attr` and raises for a longer chain.
   */
  lemma FlattenByRoot(value: Node, attr: string)
    ensures Root(value).NameExpr? ==>
      FlattenAttribute(value, attr) == Ok(Some(Join([Root(value).id] + AttrsAbove(value) + [attr], Dot)))
    ensures Root(value).Call? && Root(value).func.NameExpr? ==>
      FlattenAttribute(value, attr) == Ok(Some(Join([Root(value).func.id] + (AttrsAbove(value) + [attr])[1..], Dot)))
    ensures Root(value).Call? && !Root(value).func.NameExpr? ==>
      FlattenAttribute(value, attr) == Raise(AttributeError("id"))
    ensures !Root(value).NameExpr? && !Root(value).Call? ==>
      FlattenAttribute(value, attr) == if value.Attribute? then Raise(TypeError) else Ok(None)
  {
    if Root(value).NameExpr? {
      FlattenNameRoot(value, attr);
    } else if Root(value).Call? && Root(value).func.NameExpr? {
      FlattenCallRoot(value, attr);
    } else {
      FlattenOtherRoot(value, attr);
    }
  }

  lemma {:induction false} FlattenNameRoot(value: Node, attr: string)
    requires Root(value).NameExpr?
    ensures FlattenAttribute(value, attr) == Ok(Some(Join([Root(value).id] + AttrsAbove(value) + [attr], Dot)))
  {
    var id := Root(value).id;
    if value.Attribute? {
      var inner, innerAttr := value.value, value.attr;
      FlattenNameRoot(inner, innerAttr);
      var ids := AttrsAbove(inner) + [innerAttr];
      assert [id] + AttrsAbove(inner) + [innerAttr] == [id] + ids;
      JoinSnoc([id] + ids, attr, Dot);
    } else {
      assert [id] + AttrsAbove(value) + [attr] == [id, attr];
      assert [id, attr][1..] == [attr];
    }
  }

  lemma {:induction false} FlattenCallRoot(value: Node, attr: string)
    requires Root(value).Call? && Root(value).func.NameExpr?
    ensures FlattenAttribute(value, attr) == Ok(Some(Join([Root(value).func.id] + (AttrsAbove(value) + [attr])[1..], Dot)))
  {
    var f := Root(value).func.id;
    if value.Attribute? {
      var inner, innerAttr := value.value, value.attr;
      FlattenCallRoot(inner, innerAttr);
      var ids := AttrsAbove(inner) + [innerAttr];
      JoinSnoc([f] + ids[1..], attr, Dot);
      assert (ids + [attr])[1..] == ids[1..] + [attr];
      assert [f] + (ids + [attr])[1..] == [f] + ids[1..] + [attr];
    } else {
      assert [f] + (AttrsAbove(value) + [attr])[1..] == [f];
    }
  }

  lemma {:induction false} FlattenOtherRoot(value: Node, attr: string)
    requires !Root(value).NameExpr? && !(Root(value).Call? && Root(value).func.NameExpr?)
    ensures Root(value).Call? ==> FlattenAttribute(value, attr) == Raise(AttributeError("id"))
    ensures !Root(value).Call? ==>
      FlattenAttribute(value, attr) == if value.Attribute? then Raise(TypeError) else Ok(None)
  {
    if value.Attribute? {
      FlattenOtherRoot(value.value, value.attr);
    }
  }

  /**
   * Reading `pkg.sub.Name`, with no dotted prefix of it bound, records the
   * module `pkg.sub` with the member `Name`.
   */
  lemma AttributeReadSplitsAtLastDot(value: Node, attr: string, st: State)
    requires Root(value).NameExpr?
    requires Dot !in attr
    ensures var path := Join([Root(value).id] + AttrsAbove(value), Dot);
      var name := Name(path, Some(attr), {});
      VisitAttribute(value, attr, Load, st) ==
        Ok(if name.InDict(Keys(st.realNames)) then st else st.(fakeNames := Added(st.fakeNames, name)))
  {
    var ids := [Root(value).id] + AttrsAbove(value);
    FlattenByRoot(value, attr);
    JoinSnoc(ids, attr, Dot);
    FromStrSplitsAtLastDot(Join(ids, Dot), attr);
  }

  // ---------------------------------------------------------------------
  // Frames

  /** The node contains no deletion. */
  predicate NoDeletes(n: Node)
    decreases Count(n), 1
  {
    ChildrenCount(n);
    !(n.NameExpr? && n.ctx == Del) && !(n.Attribute? && n.ctx == Del) && NoDeletesAll(Children(n))
  }

  predicate NoDeletesAll(ns: seq<Node>)
    decreases CountAll(ns), 2
  {
    ns == [] || (NoDeletes(ns[0]) && NoDeletesAll(ns[1..]))
  }

  /** `b` differs from `a` at most in the innermost frame. */
  predicate SameOuter(a: State, b: State) {
    Outer(a.realNames) == Outer(b.realNames)
  }

  /** `b`'s innermost frame has every binding of `a`'s and the outer frames are the same. */
  predicate Grows(a: State, b: State) {
    SameOuter(a, b) && Top(a.realNames) <= Top(b.realNames)
  }

  lemma {:induction false} BindAllGrows(st: State, ids: seq<string>)
    ensures Grows(st, BindAll(st, ids))
    ensures forall id :: id in ids ==> id in Top(BindAll(st, ids).realNames)
    decreases ids
  {
    if ids != [] {
      BindAllGrows(BindName(st, ids[0]), ids[1..]);
    }
  }

  /**
   * `visit_Import` binds, in the current frame, each alias's `asname`, or
   * its name when the `asname` is missing or empty, and changes nothing else.
   */
  lemma {:induction false} BindAliasesGrows(st: State, names: seq<Alias>)
    ensures Grows(st, BindAliases(st, names))
    ensures forall a :: a in names ==> a.BoundName() in Top(BindAliases(st, names).realNames)
    decreases names
  {
    if names != [] {
      var a := names[0];
      var next := BindName(st, a.BoundName());
      BindAliasesGrows(next, names[1..]);
      assert a.BoundName() in Top(next.realNames);
      forall b | b in names ensures b.BoundName() in Top(BindAliases(st, names).realNames) {
        if b != a {
          assert b in names[1..];
        }
      }
    }
  }

  lemma {:induction false} BindArgsGrows(args: seq<Arg>, st: State)
    requires BindArgs(args, st).Ok?
    ensures Grows(st, BindArgs(args, st).value)
  {
    if args != [] {
      var bound := BindName(st, args[0].arg);
      if args[0].annotation.Some? {
        HandleAnnotationFrames(args[0].annotation.value, bound);
      }
      BindArgsGrows(args[1..], BindArg(args[0], st).value);
    }
  }

  /** The loop over the generators binds every target id of every generator in the innermost frame. */
  lemma {:induction false} BindGeneratorsGrows(gens: seq<Comprehension>, st: State)
    requires BindGenerators(gens, st).Ok?
    ensures Grows(st, BindGenerators(gens, st).value)
    ensures forall i :: 0 <= i < |gens| ==> TargetIds(gens[i].target).Ok?
    ensures forall i, id :: 0 <= i < |gens| && id in TargetIds(gens[i].target).value ==>
      id in Top(BindGenerators(gens, st).value.realNames)
  {
    if gens != [] {
      var ids := TargetIds(gens[0].target).value;
      var mid := BindAll(st, ids);
      BindAllGrows(st, ids);
      BindGeneratorsGrows(gens[1..], mid);
      assert BindGenerators(gens, st) == BindGenerators(gens[1..], mid);
      forall i | 0 < i < |gens| ensures gens[i] == gens[1..][i - 1] {}
    }
  }

  /** The names the parameters in `args` bind. */
  function ArgNames(args: seq<Arg>): set<string> {
    set a | a in args :: a.arg
  }

  function OptArgNames(o: Option<Arg>): set<string> {
    if o.Some? then {o.value.arg} else {}
  }

  /** What `visit_FunctionDef` binds in the function's frame: `args`, `vararg` and `kwarg`. */
  function ParamNames(args: Arguments): set<string> {
    ArgNames(args.args) + OptArgNames(args.vararg) + OptArgNames(args.kwarg)
  }

  /** `b` keeps every entry of `a` in place, with its module and member, and may append more. */
  predicate Extends(a: seq<Name>, b: seq<Name>) {
    |a| <= |b| && forall i :: 0 <= i < |a| ==>
      b[i].modulePath == a[i].modulePath && b[i].member == a[i].member && a[i].aliases <= b[i].aliases
  }

  lemma ExtendsTrans(a: seq<Name>, b: seq<Name>, c: seq<Name>)
    requires Extends(a, b) && Extends(b, c)
    ensures Extends(a, c)
  {
  }

  /** Reading an annotation may add to the fake names but never drops or reorders one. */
  lemma HandleAnnotationExtends(a: Node, st: State)
    requires HandleAnnotation(a, st).Ok?
    ensures Extends(st.fakeNames, HandleAnnotation(a, st).value.fakeNames)
  {
  }

  /**
   * The loop over `args.args` adds exactly the parameters to the innermost
   * frame; the fake names only grow, and stay as they were when no
   * parameter is annotated.
   */
  lemma {:induction false} BindArgsBinds(args: seq<Arg>, st: State)
    requires BindArgs(args, st).Ok?
    ensures Top(BindArgs(args, st).value.realNames) == Top(st.realNames) + ArgNames(args)
    ensures Extends(st.fakeNames, BindArgs(args, st).value.fakeNames)
    ensures (forall a :: a in args ==> a.annotation.None?) ==> BindArgs(args, st).value.fakeNames == st.fakeNames
  {
    if args == [] {
      assert ArgNames(args) == {};
    } else {
      var a, rest := args[0], args[1..];
      var bound := BindName(st, a.arg);
      var next := BindArg(a, st).value;
      var result := BindArgs(rest, next).value;
      assert BindArgs(args, st) == BindArgs(rest, next);
      if a.annotation.Some? {
        HandleAnnotationFrames(a.annotation.value, bound);
        HandleAnnotationExtends(a.annotation.value, bound);
      } else {
        assert next == bound;
      }
      BindArgsBinds(rest, next);
      ArgNamesCons(args);
      ExtendsTrans(st.fakeNames, next.fakeNames, result.fakeNames);
      if forall x :: x in args ==> x.annotation.None? {
        assert forall x :: x in rest ==> x in args;
      }
    }
  }

  lemma ArgNamesCons(args: seq<Arg>)
    requires args != []
    ensures ArgNames(args) == {args[0].arg} + ArgNames(args[1..])
  {
    assert args == [args[0]] + args[1..];
  }

  /**
   * What a function's prologue leaves. The enclosing frames hold the
   * function's name (if any) and nothing else new; a new innermost frame
   * holds exactly the parameters. The return annotation is read in the
   * enclosing scope, before any parameter is bound: the fake names after the
   * prologue extend those after reading it in `st`, and equal them when no
   * parameter is annotated.
   */
  lemma EnterFunctionFrames(name: Option<string>, args: Arguments, ret: Option<Node>, st: State)
    requires EnterFunction(name, args, ret, st).Ok?
    ensures Outer(EnterFunction(name, args, ret, st).value.realNames) ==
      if name.Some? then Bind(st.realNames, name.value) else st.realNames
    ensures Top(EnterFunction(name, args, ret, st).value.realNames) == ParamNames(args)
    ensures ret.Some? ==> HandleAnnotation(ret.value, st).Ok?
    ensures var read := if ret.Some? && HandleAnnotation(ret.value, st).Ok? then HandleAnnotation(ret.value, st).value else st;
      Extends(read.fakeNames, EnterFunction(name, args, ret, st).value.fakeNames)
      && ((forall a :: a in args.args ==> a.annotation.None?) ==>
          EnterFunction(name, args, ret, st).value.fakeNames == read.fakeNames)
  {
    var annotated := if ret.Some? then HandleAnnotation(ret.value, st) else Ok(st);
    if ret.Some? {
      HandleAnnotationFrames(ret.value, st);
    }
    var named := if name.Some? then BindName(annotated.value, name.value) else annotated.value;
    assert named.fakeNames == annotated.value.fakeNames;
    assert Outer(PushCtx(named).realNames) == if name.Some? then Bind(st.realNames, name.value) else st.realNames;
    ParametersFrame(args, PushCtx(named));
  }

  /** From a freshly pushed frame, the parameters fill it and leave the frames outside it alone. */
  lemma ParametersFrame(args: Arguments, pushed: State)
    requires Top(pushed.realNames) == {}
    requires BindArgs(args.args, pushed).Ok?
    ensures var r := BindOptArg(args.kwarg, BindOptArg(args.vararg, BindArgs(args.args, pushed).value));
      Outer(r.realNames) == Outer(pushed.realNames) && Top(r.realNames) == ParamNames(args)
      && Extends(pushed.fakeNames, r.fakeNames)
      && ((forall a :: a in args.args ==> a.annotation.None?) ==> r.fakeNames == pushed.fakeNames)
  {
    BindArgsGrows(args.args, pushed);
    BindArgsBinds(args.args, pushed);
    var withArgs := BindArgs(args.args, pushed).value;
    BindOptArgFrames(args.vararg, withArgs);
    BindOptArgFrames(args.kwarg, BindOptArg(args.vararg, withArgs));
  }

  /** Reading an annotation never binds anything. */
  lemma HandleAnnotationFrames(a: Node, st: State)
    requires HandleAnnotation(a, st).Ok?
    ensures HandleAnnotation(a, st).value.realNames == st.realNames
  {
  }

  lemma BindOptArgFrames(o: Option<Arg>, st: State)
    ensures Outer(BindOptArg(o, st).realNames) == Outer(st.realNames)
    ensures Top(BindOptArg(o, st).realNames) == Top(st.realNames) + OptArgNames(o)
    ensures BindOptArg(o, st).fakeNames == st.fakeNames
  {
  }

  /**
   * A visit changes only the innermost frame of the chain it starts from,
   * and without deletions it only adds to that frame: pushes and pops are
   * balanced and bindings go to the current frame.
   */
  lemma {:induction false} VisitScoping(n: Node, st: State)
    requires Visit(n, st).Ok?
    ensures SameOuter(st, Visit(n, st).value)
    ensures NoDeletes(n) ==> Grows(st, Visit(n, st).value)
    decreases Count(n), 1
  {
    ChildrenCount(n);
    match n
    case NameExpr(_, _) =>
    case Attribute(_, _, _) =>
    case FunctionDef(_, _, _, _, _, _) =>
      ScopedNodes(n, st);
    case Lambda(_, _) =>
      ScopedNodes(n, st);
    case ClassDef(_, _, _, _, _) =>
      ScopedNodes(n, st);
    case Comp(_, _, _) =>
      ScopedNodes(n, st);
    case ExceptHandler(_, _, _) =>
      ScopedNodes(n, st);
    case For(target, _, _, _) =>
      var ids := TargetIds(target).value;
      BindAllGrows(st, ids);
      VisitAllScoping(Children(n), BindAll(st, ids));
    case Import(names) =>
      BindAliasesGrows(st, names);
    case ImportFrom(_, names) =>
      BindAliasesGrows(st, names);
    case _ =>
      VisitAllScoping(Children(n), st);
  }

  /** The frame a visit pushes for itself before it visits the children. */
  function Entered(n: Node, st: State): Result<State>
    requires n.FunctionDef? || n.Lambda? || n.ClassDef? || n.Comp? || n.ExceptHandler?
  {
    match n
    case FunctionDef(name, args, _, _, ret, _) => EnterFunction(Some(name), args, ret, st)
    case Lambda(args, _) => EnterFunction(None, args, None, st)
    case ClassDef(name, _, _, _, _) => Ok(PushCtx(BindName(st, name)))
    case Comp(_, _, generators) => BindGenerators(generators, PushCtx(st))
    case ExceptHandler(_, handlerName, _) =>
      Ok(if n.BindsHandlerName() then BindName(PushCtx(st), handlerName.value) else PushCtx(st))
  }

  /** Nodes with a scope of their own: enter, visit the children, pop. */
  lemma ScopedVisitUnfolds(n: Node, st: State)
    requires n.FunctionDef? || n.Lambda? || n.ClassDef? || n.Comp? || n.ExceptHandler?
    ensures Visit(n, st) ==
      match Entered(n, st)
      case Raise(e) => Raise(e)
      case Ok(inner) => (match VisitAll(Children(n), inner) case Raise(e) => Raise(e) case Ok(done) => Ok(PopCtx(done)))
  {
    match n
    case FunctionDef(_, _, _, _, _, _) =>
    case Lambda(_, _) =>
    case ClassDef(_, _, _, _, _) =>
    case Comp(_, _, _) =>
    case ExceptHandler(_, _, _) =>
  }

  /**
   * The enclosing frames after entering: the node's name, if it binds one,
   * and nothing else. The new frame holds a comprehension's targets, or an
   * except handler's non-empty name; a class body's starts empty.
   */
  lemma EnteredFrames(n: Node, st: State)
    requires n.FunctionDef? || n.Lambda? || n.ClassDef? || n.Comp? || n.ExceptHandler?
    requires Entered(n, st).Ok?
    ensures Outer(Entered(n, st).value.realNames) ==
      if n.FunctionDef? || n.ClassDef? then Bind(st.realNames, n.name) else st.realNames
    ensures n.ClassDef? ==> Top(Entered(n, st).value.realNames) == {}
    ensures n.ExceptHandler? ==>
      Top(Entered(n, st).value.realNames) == (if n.BindsHandlerName() then {n.handlerName.value} else {})
    ensures n.Comp? ==> forall i :: 0 <= i < |n.generators| ==> TargetIds(n.generators[i].target).Ok?
    ensures n.Comp? ==> forall i, id :: 0 <= i < |n.generators| && id in TargetIds(n.generators[i].target).value ==>
      id in Top(Entered(n, st).value.realNames)
  {
    match n
    case FunctionDef(name, args, _, _, ret, _) => EnterFunctionFrames(Some(name), args, ret, st);
    case Lambda(args, _) => EnterFunctionFrames(None, args, None, st);
    case ClassDef(_, _, _, _, _) =>
    case Comp(_, _, generators) => BindGeneratorsGrows(generators, PushCtx(st));
    case ExceptHandler(_, _, _) =>
  }

  /**
   * Functions and classes bind their name in the enclosing frame and
   * nothing else there; lambdas, comprehensions and except handlers leave
   * the chain as it was. Each pops its frame, after which no fake name's
   * module is bound.
   */
  lemma {:induction false} ScopedNodes(n: Node, st: State)
    requires n.FunctionDef? || n.Lambda? || n.ClassDef? || n.Comp? || n.ExceptHandler?
    requires Visit(n, st).Ok?
    ensures Visit(n, st).value.realNames ==
      if n.FunctionDef? || n.ClassDef? then Bind(st.realNames, n.name) else st.realNames
    ensures forall e :: e in Visit(n, st).value.fakeNames ==> e.modulePath !in Keys(Visit(n, st).value.realNames)
    decreases Count(n), 0
  {
    ChildrenCount(n);
    ScopedVisitUnfolds(n, st);
    EnteredFrames(n, st);
    VisitAllScoping(Children(n), Entered(n, st).value);
  }

  lemma {:induction false} VisitAllScoping(ns: seq<Node>, st: State)
    requires VisitAll(ns, st).Ok?
    ensures SameOuter(st, VisitAll(ns, st).value)
    ensures NoDeletesAll(ns) ==> Grows(st, VisitAll(ns, st).value)
    decreases CountAll(ns), 2
  {
    if ns != [] {
      VisitScoping(ns[0], st);
      VisitAllScoping(ns[1..], Visit(ns[0], st).value);
    }
  }

  /**
   * `visit_Name` by context. A store binds in the innermost frame only. A
   * read is recorded through `add` exactly when no dotted prefix of the
   * identifier is bound in any frame. A deletion removes a name bound in the
   * innermost frame, ignores an unbound one, and raises `KeyError` for a
   * name bound only in an enclosing frame.
   */
  lemma VisitNameByContext(id: string, st: State)
    ensures var r := VisitName(id, Store, st);
      r.Ok? && r.value.fakeNames == st.fakeNames && Outer(r.value.realNames) == Outer(st.realNames)
      && Top(r.value.realNames) == Top(st.realNames) + {id}
    ensures (id == [] || id[|id| - 1] != Dot) ==>
      var r := VisitName(id, Load, st);
      r.Ok? && r.value.realNames == st.realNames
      && r.value.fakeNames ==
        if exists p :: IsDottedPrefix(p, id) && p in Keys(st.realNames) then st.fakeNames
        else Added(st.fakeNames, FromStr(id))
    ensures var r := VisitName(id, Del, st);
      (r.Ok? <==> id in Top(st.realNames) || id !in Keys(st.realNames))
      && (r.Raise? ==> r.exception == KeyError)
      && (r.Ok? ==> r.value.fakeNames == st.fakeNames && Outer(r.value.realNames) == Outer(st.realNames)
                    && Top(r.value.realNames) == Top(st.realNames) - {id})
  {
    StoreBindsInTop(id, st);
    if id == [] || id[|id| - 1] != Dot {
      LoadChecksPrefixes(id, st);
    }
    if id in Top(st.realNames) {
      TopIsBound(st.realNames, id);
    }
  }

  lemma StoreBindsInTop(id: string, st: State)
    ensures Top(Bind(st.realNames, id)) == Top(st.realNames) + {id}
  {
    var c := st.realNames;
    assert Bind(c, id) == Outer(c) + [Top(c) + {id}];
  }

  lemma LoadChecksPrefixes(id: string, st: State)
    requires id == [] || id[|id| - 1] != Dot
    ensures FromStr(id).InDict(Keys(st.realNames)) <==> exists p :: IsDottedPrefix(p, id) && p in Keys(st.realNames)
  {
    var n := FromStr(id);
    assert n.member.Some? ==> n.member.value != [];
    InDictMeansDottedPrefixBound(n, Keys(st.realNames));
  }

  /** A read of a bound plain identifier is never recorded. */
  lemma BoundNameIsNotFree(id: string, st: State)
    requires Dot !in id && id in Keys(st.realNames)
    ensures VisitName(id, Load, st) == Ok(st)
  {
    InDictMeansDottedPrefixBound(FromStr(id), Keys(st.realNames));
    assert IsDottedPrefix(id, FromStr(id).Id());
  }

  /**
   * A `for` loop binds its targets in the current frame and pushes none, so
   * (absent deletions) the targets are still bound after the loop and a
   * later bare read of one of them is not free.
   */
  lemma LoopTargetsOutliveLoop(n: Node, st: State)
    requires n.For? && NoDeletes(n) && Visit(n, st).Ok?
    ensures TargetIds(n.target).Ok?
    ensures SameOuter(st, Visit(n, st).value)
    ensures forall id :: id in TargetIds(n.target).value ==> id in Top(Visit(n, st).value.realNames)
    ensures forall id :: id in TargetIds(n.target).value && Dot !in id ==>
      VisitName(id, Load, Visit(n, st).value) == Ok(Visit(n, st).value)
  {
    ChildrenCount(n);
    var ids := TargetIds(n.target).value;
    var r := Visit(n, st).value;
    BindAllGrows(st, ids);
    VisitAllScoping(Children(n), BindAll(st, ids));
    forall id | id in ids && Dot !in id ensures VisitName(id, Load, r) == Ok(r) {
      BoundNameIsNotFree(id, r);
    }
  }

  /** Plain reads of bound, dot-free names record nothing and bind nothing. */
  lemma {:induction false} BoundReadsRecordNothing(es: seq<Node>, st: State)
    requires forall e :: e in es ==> e.NameExpr? && e.ctx.Load? && Dot !in e.id && e.id in Keys(st.realNames)
    ensures VisitAll(es, st) == Ok(st)
    decreases es
  {
    if es != [] {
      BoundNameIsNotFree(es[0].id, st);
      assert Visit(es[0], st) == Ok(st);
      assert forall e :: e in es[1..] ==> e in es;
      BoundReadsRecordNothing(es[1..], st);
    }
  }

  /**
   * The elements of a comprehension are visited first, inside its own
   * frame, after every generator target is bound: in `[y for y in ys]` the
   * read of `y` records nothing, and the visit is as if the elements were
   * not there.
   */
  lemma ComprehensionReadsItsTargets(n: Node, st: State)
    requires n.Comp? && Entered(n, st).Ok?
    requires forall e :: e in n.elts ==>
      && e.NameExpr? && e.ctx.Load? && Dot !in e.id
      && exists i :: 0 <= i < |n.generators| && TargetIds(n.generators[i].target).Ok?
           && e.id in TargetIds(n.generators[i].target).value
    ensures VisitAll(n.elts, Entered(n, st).value) == Ok(Entered(n, st).value)
    ensures Visit(n, st) ==
      match VisitAll(GeneratorsChildren(n.generators), Entered(n, st).value)
      case Raise(e) => Raise(e)
      case Ok(done) => Ok(PopCtx(done))
  {
    var inner := Entered(n, st).value;
    EnteredFrames(n, st);
    forall e | e in n.elts ensures e.id in Keys(inner.realNames) {
      TopIsBound(inner.realNames, e.id);
    }
    BoundReadsRecordNothing(n.elts, inner);
    ScopedVisitUnfolds(n, st);
    VisitAllAppend(n.elts, GeneratorsChildren(n.generators), inner);
  }

  /** Inside an except handler, a read of its non-empty, dot-free name records nothing. */
  lemma HandlerReadsItsName(n: Node, st: State)
    requires n.ExceptHandler? && n.BindsHandlerName() && Dot !in n.handlerName.value
    ensures Entered(n, st).Ok?
    ensures VisitName(n.handlerName.value, Load, Entered(n, st).value) == Ok(Entered(n, st).value)
  {
    var inner := Entered(n, st).value;
    EnteredFrames(n, st);
    TopIsBound(inner.realNames, n.handlerName.value);
    BoundNameIsNotFree(n.handlerName.value, inner);
  }

  /**
   * `except E as "":` (only a built tree has one) binds nothing, so a read
   * of `""` in its body is recorded and survives the handler's pop.
   */
  lemma EmptyHandlerNameBindsNothing(builtins: set<string>)
    requires "" !in builtins
    ensures Parse(ExceptHandler(None, Some(""), [NameExpr("", Load)]), builtins) == Ok([Name("", None, {})])
  {
    var n := ExceptHandler(None, Some(""), [NameExpr("", Load)]);
    var st0 := Initial(builtins);
    var inner := PushCtx(st0);
    assert Entered(n, st0) == Ok(inner);
    assert FromStr("") == Name("", None, {});
    assert Name("", None, {}).Parts() == [""];
    assert "" !in Keys(inner.realNames);
    var read := inner.(fakeNames := [Name("", None, {})]);
    assert Visit(NameExpr("", Load), inner) == Ok(read);
    assert VisitAll(Children(n), inner) == Ok(read);
    var outer := Keys(Parents(read.realNames));
    assert "" !in outer;
    assert Unbound(read.fakeNames, outer) == [Name("", None, {})] by {
      assert read.fakeNames[1..] == [];
    }
    ScopedVisitUnfolds(n, st0);
    assert Visit(n, st0) == Ok(PopCtx(read));
  }

  // ---------------------------------------------------------------------
  // Forward references at module level

  lemma {:induction false} VisitAllAppend(a: seq<Node>, b: seq<Node>, st: State)
    ensures VisitAll(a + b, st) ==
      match VisitAll(a, st)
      case Raise(e) => Raise(e)
      case Ok(mid) => VisitAll(b, mid)
    decreases a
  {
    if a == [] {
      assert a + b == b;
    } else {
      assert (a + b)[0] == a[0];
      assert (a + b)[1..] == a[1..] + b;
      if Visit(a[0], st).Ok? {
        VisitAllAppend(a[1..], b, Visit(a[0], st).value);
      }
    }
  }

  lemma {:induction false} NoDeletesAllSuffix(ns: seq<Node>, j: nat)
    requires NoDeletesAll(ns) && j <= |ns|
    ensures NoDeletesAll(ns[j..])
  {
    if j > 0 {
      NoDeletesAllSuffix(ns[1..], j - 1);
      assert ns[1..][j - 1..] == ns[j..];
    }
  }

  lemma VisitGeneric(children: seq<Node>, st: State)
    ensures Visit(Generic(children), st) == VisitAll(children, st)
  {
  }

  lemma TopIsBound(c: Chain<string>, k: string)
    requires k in Top(c)
    ensures k in Keys(c)
  {
    assert k in c[|c| - 1];
  }

  /**
   * The analysis with the final filter: its entries are entries of
   * `parse_names`' result, and in a module without deletions none of them
   * names a module that any module-level statement binds, whether that
   * statement comes before or after the read. So a module-level function
   * reading a global defined by a later statement does not report it.
   */
  lemma ResolvedNamesAreUnboundAtModuleLevel(stmts: seq<Node>, builtins: set<string>, j: nat)
    requires NoDeletesAll(stmts) && j <= |stmts|
    requires ParseResolved(Generic(stmts), builtins).Ok?
    ensures Parse(Generic(stmts), builtins).Ok?
    ensures forall e :: e in ParseResolved(Generic(stmts), builtins).value ==> e in Parse(Generic(stmts), builtins).value
    ensures VisitAll(stmts[..j], Initial(builtins)).Ok?
    ensures forall e :: e in ParseResolved(Generic(stmts), builtins).value ==>
      e.modulePath !in Top(VisitAll(stmts[..j], Initial(builtins)).value.realNames)
  {
    var st0 := Initial(builtins);
    VisitGeneric(stmts, st0);
    assert stmts == stmts[..j] + stmts[j..];
    VisitAllAppend(stmts[..j], stmts[j..], st0);
    var mid := VisitAll(stmts[..j], st0).value;
    var final := VisitAll(stmts, st0).value;
    NoDeletesAllSuffix(stmts, j);
    VisitAllScoping(stmts[j..], mid);
    assert Top(mid.realNames) <= Top(final.realNames);
    forall e | e in ParseResolved(Generic(stmts), builtins).value
      ensures e.modulePath !in Top(mid.realNames)
    {
      if e.modulePath in Top(mid.realNames) {
        TopIsBound(final.realNames, e.modulePath);
      }
    }
  }

  /** `def f(): return g` followed by `g = 1`: `g` is a global defined after its read. */
  function ForwardReference(): Node {
    Generic([
      FunctionDef("f", Arguments([], [], None, [], [], None, []),
                  [Return(Some(NameExpr("g", Load)))], [], None, false),
      Generic([NameExpr("g", Store), Constant(OtherValue)])])
  }

  /** The state after `def f(): return g`: `f` bound, `g` recorded. */
  function AfterDefinition(builtins: set<string>): State {
    PopCtx(PushCtx(BindName(Initial(builtins), "f")).(fakeNames := [Name("g", None, {})]))
  }

  lemma BodyRecordsRead(st: State)
    requires "g" !in Keys(st.realNames) && st.fakeNames == []
    ensures VisitAll([Return(Some(NameExpr("g", Load)))], st) == Ok(st.(fakeNames := [Name("g", None, {})]))
  {
    var g := FromStr("g");
    assert g == Name("g", None, {});
    assert g.Parts() == ["g"];
    assert !g.InDict(Keys(st.realNames));
    var read := st.(fakeNames := [g]);
    assert VisitName("g", Load, st) == Ok(read);
    assert Visit(NameExpr("g", Load), st) == Ok(read);
    assert Visit(Return(Some(NameExpr("g", Load))), st) == Ok(read);
  }

  lemma DefinitionRecordsRead(builtins: set<string>)
    requires "g" !in builtins
    ensures Visit(ForwardReference().children[0], Initial(builtins)) == Ok(AfterDefinition(builtins))
    ensures AfterDefinition(builtins).fakeNames == [Name("g", None, {})]
  {
    var st0 := Initial(builtins);
    var fdef := ForwardReference().children[0];
    assert "g" !in Keys(st0.realNames) by {
      assert forall i :: 0 <= i < |st0.realNames| ==> st0.realNames[i] == builtins || st0.realNames[i] == {"self"};
    }
    var entered := PushCtx(BindName(st0, "f"));
    assert "g" !in Keys(entered.realNames);
    assert Entered(fdef, st0) == Ok(entered);
    assert Children(fdef) == [Return(Some(NameExpr("g", Load)))];
    BodyRecordsRead(entered);
    assert Keys(AfterDefinition(builtins).realNames) == Keys(st0.realNames) + {"f"};
    ScopedVisitUnfolds(fdef, st0);
  }

  lemma AssignmentBinds(st: State)
    ensures Visit(ForwardReference().children[1], st) == Ok(BindName(st, "g"))
  {
    var bound := BindName(st, "g");
    VisitGeneric(ForwardReference().children[1].children, st);
    assert Visit(NameExpr("g", Store), st) == Ok(bound);
    assert Visit(Constant(OtherValue), bound) == Ok(bound);
    assert VisitAll([Constant(OtherValue)], bound) == Ok(bound);
  }

  /**
   * `parse_names` as written reports the forward-referenced global `g`
   * although the module binds it; the final filter retracts it.
   */
  lemma ParseKeepsForwardReference(builtins: set<string>)
    requires "g" !in builtins
    ensures Parse(ForwardReference(), builtins) == Ok([Name("g", None, {})])
    ensures "g" in Top(Visit(ForwardReference(), Initial(builtins)).value.realNames)
    ensures ParseResolved(ForwardReference(), builtins) == Ok([])
  {
    var st0 := Initial(builtins);
    var popped := AfterDefinition(builtins);
    DefinitionRecordsRead(builtins);
    AssignmentBinds(popped);
    var bound := BindName(popped, "g");
    VisitGeneric(ForwardReference().children, st0);
    assert VisitAll([ForwardReference().children[1]], popped) == Ok(bound);
    assert Visit(ForwardReference(), st0) == Ok(bound);
    assert Keys(bound.realNames) == Keys(popped.realNames) + {"g"};
  }

  /** `def f() -> f.T: ...` with nothing else in it. */
  function SelfAnnotated(): Node {
    FunctionDef("f", Arguments([], [], None, [], [], None, []), [], [],
                Some(Attribute(NameExpr("f", Load), "T", Load)), false)
  }

  lemma FTParts()
    ensures FromStr("f.T") == Name("f", Some("T"), {})
    ensures Name("f", Some("T"), {}).Parts() == ["f", "f.T"]
  {
    assert "f.T" == "f" + [Dot] + "T";
    FromStrSplitsAtLastDot("f", "T");
    var split := Split("f", Dot);
    assert split == ["f"];
    var segs := Name("f", Some("T"), {}).Segments();
    assert segs == ["f", "T"];
    assert segs[..1] == ["f"] && segs[..2] == segs;
  }

  /**
   * The return annotation is read before the function's name is bound, so
   * `def f() -> f.T` records `f.T` on entry; popping the function's frame
   * retracts it, because `f` is bound in the module frame by then.
   */
  lemma SelfAnnotationRetracted(builtins: set<string>)
    requires "f" !in builtins && "f.T" !in builtins
    ensures Entered(SelfAnnotated(), Initial(builtins)).Ok?
    ensures Entered(SelfAnnotated(), Initial(builtins)).value.fakeNames == [Name("f", Some("T"), {})]
    ensures Parse(SelfAnnotated(), builtins) == Ok([])
  {
    var st0 := Initial(builtins);
    var fdef := SelfAnnotated();
    var ann := Attribute(NameExpr("f", Load), "T", Load);
    var entered := SelfAnnotatedEntry(builtins);
    assert Children(fdef) == [ann];
    AttributeOfBoundRootRecordsNothing(ann, entered);
    assert VisitAll([ann], entered) == Ok(entered);
    ScopedVisitUnfolds(fdef, st0);
    assert "f" in Keys(Parents(entered.realNames));
  }

  /** Entering `f` reads `f.T` while `f` is still unbound, then binds `f` and pushes. */
  lemma SelfAnnotatedEntry(builtins: set<string>) returns (entered: State)
    requires "f" !in builtins && "f.T" !in builtins
    ensures Entered(SelfAnnotated(), Initial(builtins)) == Ok(entered)
    ensures entered == PushCtx(BindName(Initial(builtins).(fakeNames := [Name("f", Some("T"), {})]), "f"))
  {
    var st0 := Initial(builtins);
    var ann := Attribute(NameExpr("f", Load), "T", Load);
    var fT := Name("f", Some("T"), {});
    FTParts();
    assert Keys(st0.realNames) == builtins + {"self"};
    assert !fT.InDict(Keys(st0.realNames));
    assert HandleAnnotation(ann, st0) == Ok(st0.(fakeNames := [fT]));
    entered := PushCtx(BindName(st0.(fakeNames := [fT]), "f"));
  }

  /** Reading `root.attr` records nothing once `root` is bound. */
  lemma AttributeOfBoundRootRecordsNothing(n: Node, st: State)
    requires n.Attribute? && n.ctx.Load? && n.value.NameExpr?
    requires Dot !in n.value.id && Dot !in n.attr && n.attr != ""
    requires n.value.id in Keys(st.realNames)
    ensures Visit(n, st) == Ok(st)
  {
    DottedReadOfBoundRoot(n.value.id, n.attr, Keys(st.realNames));
  }

  /** `root.attr` is bound through its first segment. */
  lemma DottedReadOfBoundRoot(root: string, attr: string, keys: set<string>)
    requires Dot !in root && Dot !in attr && attr != ""
    requires root in keys
    ensures FromStr(root + [Dot] + attr).InDict(keys)
  {
    var id := root + [Dot] + attr;
    FromStrSplitsAtLastDot(root, attr);
    InDictMeansDottedPrefixBound(FromStr(id), keys);
    assert IsDottedPrefix(root, id);
  }

  // ---------------------------------------------------------------------
  // The fake-name list

  /** `filter_fake_names` keeps the relative order: it distributes over concatenation. */
  lemma {:induction false} UnboundAppend(a: seq<Name>, b: seq<Name>, keys: set<string>)
    ensures Unbound(a + b, keys) == Unbound(a, keys) + Unbound(b, keys)
  {
    if a == [] {
      assert a + b == b;
    } else {
      assert (a + b)[0] == a[0];
      assert (a + b)[1..] == a[1..] + b;
      UnboundAppend(a[1..], b, keys);
    }
  }

  /** When no entry's module is bound, `filter_fake_names` changes nothing. */
  lemma {:induction false} UnboundKeepsUnbound(names: seq<Name>, keys: set<string>)
    requires forall n :: n in names ==> n.modulePath !in keys
    ensures Unbound(names, keys) == names
  {
    if names != [] {
      UnboundKeepsUnbound(names[1..], keys);
    }
  }

  lemma {:induction false} UnboundKeepsDistinct(names: seq<Name>, keys: set<string>)
    requires DistinctModules(names)
    ensures DistinctModules(Unbound(names, keys))
  {
    if names != [] {
      var rest := Unbound(names[1..], keys);
      UnboundKeepsDistinct(names[1..], keys);
      forall e | e in rest ensures e.modulePath != names[0].modulePath {
        var j :| 0 <= j < |names[1..]| && names[1..][j] == e;
        assert names[j + 1] == e;
      }
    }
  }

  /** A visit state whose fake names have pairwise distinct modules. */
  predicate DistinctFakes(st: State) {
    DistinctModules(st.fakeNames)
  }

  lemma NoteReadKeepsDistinct(name: Name, st: State)
    requires DistinctFakes(st)
    ensures DistinctFakes(NoteRead(name, st))
  {
    AddedKeepsModulesDistinct(st.fakeNames, name);
  }

  lemma HandleAnnotationKeepsDistinct(a: Node, st: State)
    requires DistinctFakes(st) && HandleAnnotation(a, st).Ok?
    ensures DistinctFakes(HandleAnnotation(a, st).value)
  {
    match a
    case Attribute(value, attr, _) =>
      var flat := FlattenAttribute(value, attr).value;
      if flat.Some? {
        NoteReadKeepsDistinct(FromStr(flat.value), st);
      }
    case Constant(StrValue(s)) =>
      NoteReadKeepsDistinct(FromStr(s), st);
    case _ =>
  }

  lemma {:induction false} BindArgsKeepsDistinct(args: seq<Arg>, st: State)
    requires DistinctFakes(st) && BindArgs(args, st).Ok?
    ensures DistinctFakes(BindArgs(args, st).value)
  {
    if args != [] {
      var bound := BindName(st, args[0].arg);
      if args[0].annotation.Some? {
        HandleAnnotationKeepsDistinct(args[0].annotation.value, bound);
        BindArgsKeepsDistinct(args[1..], HandleAnnotation(args[0].annotation.value, bound).value);
      } else {
        BindArgsKeepsDistinct(args[1..], bound);
      }
    }
  }

  lemma {:induction false} BindAllKeepsFakes(st: State, ids: seq<string>)
    ensures BindAll(st, ids).fakeNames == st.fakeNames
    decreases ids
  {
    if ids != [] {
      BindAllKeepsFakes(BindName(st, ids[0]), ids[1..]);
    }
  }

  lemma {:induction false} BindGeneratorsKeepsFakes(gens: seq<Comprehension>, st: State)
    requires BindGenerators(gens, st).Ok?
    ensures BindGenerators(gens, st).value.fakeNames == st.fakeNames
  {
    if gens != [] {
      var ids := TargetIds(gens[0].target).value;
      BindAllKeepsFakes(st, ids);
      BindGeneratorsKeepsFakes(gens[1..], BindAll(st, ids));
    }
  }

  lemma {:induction false} BindAliasesKeepsFakes(st: State, names: seq<Alias>)
    ensures BindAliases(st, names).fakeNames == st.fakeNames
    decreases names
  {
    if names != [] {
      var a := names[0];
      BindAliasesKeepsFakes(BindName(st, a.BoundName()), names[1..]);
    }
  }

  lemma EnteredKeepsDistinct(n: Node, st: State)
    requires n.FunctionDef? || n.Lambda? || n.ClassDef? || n.Comp? || n.ExceptHandler?
    requires DistinctFakes(st) && Entered(n, st).Ok?
    ensures DistinctFakes(Entered(n, st).value)
  {
    match n
    case FunctionDef(name, args, _, _, ret, _) =>
      EnterFunctionKeepsDistinct(Some(name), args, ret, st);
    case Lambda(args, _) =>
      EnterFunctionKeepsDistinct(None, args, None, st);
    case ClassDef(_, _, _, _, _) =>
    case Comp(_, _, generators) =>
      BindGeneratorsKeepsFakes(generators, PushCtx(st));
    case ExceptHandler(_, _, _) =>
  }

  lemma EnterFunctionKeepsDistinct(name: Option<string>, args: Arguments, ret: Option<Node>, st: State)
    requires DistinctFakes(st) && EnterFunction(name, args, ret, st).Ok?
    ensures DistinctFakes(EnterFunction(name, args, ret, st).value)
  {
    var annotated := if ret.Some? then HandleAnnotation(ret.value, st) else Ok(st);
    if ret.Some? {
      HandleAnnotationKeepsDistinct(ret.value, st);
    }
    var named := if name.Some? then BindName(annotated.value, name.value) else annotated.value;
    BindArgsKeepsDistinct(args.args, PushCtx(named));
  }

  /**
   * Every visit keeps the fake names' modules pairwise distinct: `add`
   * never appends a second entry for a module and the filter only drops
   * entries.
   */
  lemma {:induction false} VisitKeepsDistinct(n: Node, st: State)
    requires DistinctFakes(st) && Visit(n, st).Ok?
    ensures DistinctFakes(Visit(n, st).value)
    decreases Count(n), 1
  {
    ChildrenCount(n);
    match n
    case NameExpr(id, ctx) =>
      if ctx == Load {
        NoteReadKeepsDistinct(FromStr(id), st);
      }
    case Attribute(value, attr, ctx) =>
      var flat := FlattenAttribute(value, attr).value;
      if flat.Some? && ctx == Load {
        NoteReadKeepsDistinct(FromStr(flat.value), st);
      }
    case FunctionDef(_, _, _, _, _, _) =>
      ScopedKeepsDistinct(n, st);
    case Lambda(_, _) =>
      ScopedKeepsDistinct(n, st);
    case ClassDef(_, _, _, _, _) =>
      ScopedKeepsDistinct(n, st);
    case Comp(_, _, _) =>
      ScopedKeepsDistinct(n, st);
    case ExceptHandler(_, _, _) =>
      ScopedKeepsDistinct(n, st);
    case For(target, _, _, _) =>
      var ids := TargetIds(target).value;
      BindAllKeepsFakes(st, ids);
      VisitAllKeepsDistinct(Children(n), BindAll(st, ids));
    case Import(names) =>
      BindAliasesKeepsFakes(st, names);
    case ImportFrom(_, names) =>
      BindAliasesKeepsFakes(st, names);
    case _ =>
      VisitAllKeepsDistinct(Children(n), st);
  }

  lemma {:induction false} ScopedKeepsDistinct(n: Node, st: State)
    requires n.FunctionDef? || n.Lambda? || n.ClassDef? || n.Comp? || n.ExceptHandler?
    requires DistinctFakes(st) && Visit(n, st).Ok?
    ensures DistinctFakes(Visit(n, st).value)
    decreases Count(n), 0
  {
    ChildrenCount(n);
    ScopedVisitUnfolds(n, st);
    EnteredKeepsDistinct(n, st);
    var inner := Entered(n, st).value;
    VisitAllKeepsDistinct(Children(n), inner);
    var done := VisitAll(Children(n), inner).value;
    UnboundKeepsDistinct(done.fakeNames, Keys(Parents(done.realNames)));
  }

  lemma {:induction false} VisitAllKeepsDistinct(ns: seq<Node>, st: State)
    requires DistinctFakes(st) && VisitAll(ns, st).Ok?
    ensures DistinctFakes(VisitAll(ns, st).value)
    decreases CountAll(ns), 2
  {
    if ns != [] {
      VisitKeepsDistinct(ns[0], st);
      VisitAllKeepsDistinct(ns[1..], Visit(ns[0], st).value);
    }
  }

  /** `parse_names` (and its corrected form) never lists a module twice. */
  lemma ParsedModulesAreDistinct(tree: Node, builtins: set<string>)
    requires Parse(tree, builtins).Ok?
    ensures DistinctModules(Parse(tree, builtins).value)
    ensures DistinctModules(ParseResolved(tree, builtins).value)
  {
    var st := Visit(tree, Initial(builtins)).value;
    VisitKeepsDistinct(tree, Initial(builtins));
    UnboundKeepsDistinct(st.fakeNames, Keys(st.realNames));
  }
}

=== FILE: free_names.dfy ===
/**
 * The free-name analysis of `no_more_imports.ast.NameVisitor`, as pure
 * functions from one visitor state to the next. The class in
 * name_visitor.dfy performs the same steps in place and is proved to
 * agree with these functions.
 */
module FreeNames {
  import opened Wrappers
  import opened Dotted
  import opened Symbols
  import opened Syntax
  import opened Scopes

  /** The visitor's fields: `real_names` and `fake_names.names`. */
  datatype State = State(realNames: Chain<string>, fakeNames: seq<Name>)

  /** `NameVisitor()`: `ChainMap({"self": None}, builtins)` and no fake names. */
  function Initial(builtins: set<string>): State {
    State([builtins, {"self"}], [])
  }

  /** The comprehension in `filter_fake_names`: the entries whose module is not bound. */
  function Unbound(names: seq<Name>, keys: set<string>): (r: seq<Name>)
    ensures forall n :: n in r <==> n in names && n.modulePath !in keys
    ensures |r| <= |names|
  {
    if names == [] then []
    else (if names[0].modulePath in keys then [] else [names[0]]) + Unbound(names[1..], keys)
  }

  /** `push_ctx`. */
  function PushCtx(st: State): State {
    st.(realNames := NewChild(st.realNames))
  }

  /** `pop_ctx`: drop the innermost map, then `filter_fake_names`. */
  function PopCtx(st: State): State {
    var c := Parents(st.realNames);
    State(c, Unbound(st.fakeNames, Keys(c)))
  }

  /** `self.real_names[key] = node`. */
  function BindName(st: State, key: string): State {
    st.(realNames := Bind(st.realNames, key))
  }

  /** A read: recorded as free unless some prefix of its id is bound. */
  function NoteRead(name: Name, st: State): State {
    if name.InDict(Keys(st.realNames)) then st else st.(fakeNames := Added(st.fakeNames, name))
  }

  /** `if key in self.real_names: del self.real_names[key]`. */
  function DeleteIfBound(st: State, key: string): Result<State> {
    if key in Keys(st.realNames) then
      var c :- Delete(st.realNames, key);
      Ok(st.(realNames := c))
    else Ok(st)
  }

  /**
   * `flatten_attribute` of the attribute `value.attr`. `None` when the chain
   * is rooted in something other than a name, an attribute or a call; the
   * function raises when the root is a call of something that is not a plain
   * name (`.func.id`) and when a nested chain flattens to `None` (joining `None`).
   */
  function FlattenAttribute(value: Node, attr: string): Result<Option<string>> {
    match value
    case Attribute(inner, innerAttr, _) =>
      var prefix :- FlattenAttribute(inner, innerAttr);
      if prefix.None? then Raise(TypeError) else Ok(Some(prefix.value + [Dot] + attr))
    case NameExpr(id, _) => Ok(Some(id + [Dot] + attr))
    case Call(func, _, _) => if func.NameExpr? then Ok(Some(func.id)) else Raise(AttributeError("id"))
    case _ => Ok(None)
  }

  /** `visit_Name`. */
  function VisitName(id: string, ctx: Context, st: State): Result<State> {
    match ctx
    case Store => Ok(BindName(st, id))
    case Load => Ok(NoteRead(FromStr(id), st))
    case Del => DeleteIfBound(st, id)
  }

  /** `visit_Attribute`; it never visits the attribute's children. */
  function VisitAttribute(value: Node, attr: string, ctx: Context, st: State): Result<State> {
    var flat :- FlattenAttribute(value, attr);
    if flat.None? then Ok(st)
    else match ctx
      case Load => Ok(NoteRead(FromStr(flat.value), st))
      case Store => Ok(BindName(st, flat.value))
      case Del => DeleteIfBound(st, flat.value)
  }

  /**
   * `_handle_annotation`: an attribute chain or a string constant is read as
   * a name; any other annotation is skipped. A constant that is neither a
   * string nor `None` has no `rsplit` and raises.
   */
  function HandleAnnotation(a: Node, st: State): Result<State> {
    match a
    case Attribute(value, attr, _) =>
      var flat :- FlattenAttribute(value, attr);
      if flat.None? then Ok(st) else Ok(NoteRead(FromStr(flat.value), st))
    case Constant(StrValue(s)) => Ok(NoteRead(FromStr(s), st))
    case Constant(NoneValue) => Ok(st)
    case Constant(OtherValue) => Raise(AttributeError("rsplit"))
    case _ => Ok(st)
  }

  /** One round of the loop over `args.args`: bind the parameter, then read its annotation. */
  function BindArg(a: Arg, st: State): Result<State> {
    var bound := BindName(st, a.arg);
    if a.annotation.Some? then HandleAnnotation(a.annotation.value, bound) else Ok(bound)
  }

  /** The loop over `args.args`. */
  function BindArgs(args: seq<Arg>, st: State): Result<State> {
    if args == [] then Ok(st)
    else
      var next :- BindArg(args[0], st);
      BindArgs(args[1..], next)
  }

  function BindOptArg(o: Option<Arg>, st: State): State {
    if o.Some? then BindName(st, o.value.arg) else st
  }

  /**
   * The steps of `visit_FunctionDef` before `generic_visit`: the return
   * annotation is read in the enclosing scope, the function's name (if it
   * has one) is bound there, a frame is pushed and `args`, `vararg` and
   * `kwarg` are bound in it.
   */
  function EnterFunction(name: Option<string>, args: Arguments, returnAnnotation: Option<Node>, st: State)
    : Result<State>
  {
    var annotated :- if returnAnnotation.Some? then HandleAnnotation(returnAnnotation.value, st) else Ok(st);
    var named := if name.Some? then BindName(annotated, name.value) else annotated;
    var withArgs :- BindArgs(args.args, PushCtx(named));
    Ok(BindOptArg(args.kwarg, BindOptArg(args.vararg, withArgs)))
  }

  /** The identifiers a loop or comprehension target binds: a name, or the names of a tuple. */
  function TargetIds(target: Node): Result<seq<string>> {
    match target
    case NameExpr(id, _) => Ok([id])
    case Tuple(elts, _) => ElementIds(elts)
    case _ => Raise(AttributeError("id"))
  }

  function ElementIds(elts: seq<Node>): Result<seq<string>> {
    if elts == [] then Ok([])
    else if elts[0].NameExpr? then
      var rest :- ElementIds(elts[1..]);
      Ok([elts[0].id] + rest)
    else Raise(AttributeError("id"))
  }

  function BindAll(st: State, ids: seq<string>): State
    decreases ids
  {
    if ids == [] then st else BindAll(BindName(st, ids[0]), ids[1..])
  }

  /** The loop over `node.generators` binding every target. */
  function BindGenerators(gens: seq<Comprehension>, st: State): Result<State> {
    if gens == [] then Ok(st)
    else
      var ids :- TargetIds(gens[0].target);
      BindGenerators(gens[1..], BindAll(st, ids))
  }

  /** `visit_Import`: bind each alias's `asname`, or the imported name when it has none. */
  function BindAliases(st: State, names: seq<Alias>): State
    decreases names
  {
    if names == [] then st
    else
      var a := names[0];
      BindAliases(BindName(st, a.BoundName()), names[1..])
  }

  /** `NodeVisitor.visit`: dispatch on the node kind. */
  function Visit(n: Node, st: State): Result<State>
    decreases Count(n), 1
  {
    ChildrenCount(n);
    match n
    case NameExpr(id, ctx) => VisitName(id, ctx, st)
    case Attribute(value, attr, ctx) => VisitAttribute(value, attr, ctx, st)
    case FunctionDef(name, args, _, _, returnAnnotation, _) =>
      var inner :- EnterFunction(Some(name), args, returnAnnotation, st);
      var done :- VisitAll(Children(n), inner);
      Ok(PopCtx(done))
    case Lambda(args, _) =>
      var inner :- EnterFunction(None, args, None, st);
      var done :- VisitAll(Children(n), inner);
      Ok(PopCtx(done))
    case ClassDef(name, _, _, _, _) =>
      var done :- VisitAll(Children(n), PushCtx(BindName(st, name)));
      Ok(PopCtx(done))
    case Comp(_, _, generators) =>
      var inner :- BindGenerators(generators, PushCtx(st));
      var done :- VisitAll(Children(n), inner);
      Ok(PopCtx(done))
    case For(target, _, _, _) =>
      var ids :- TargetIds(target);
      VisitAll(Children(n), BindAll(st, ids))
    case ExceptHandler(_, handlerName, _) =>
      var inner := PushCtx(st);
      var done :- VisitAll(Children(n), if n.BindsHandlerName() then BindName(inner, handlerName.value) else inner);
      Ok(PopCtx(done))
    case Import(names) => Ok(BindAliases(st, names))
    case ImportFrom(_, names) => Ok(BindAliases(st, names))
    case _ => VisitAll(Children(n), st)
  }

  /** `generic_visit`'s loop: visit the nodes in order, stopping at the first exception. */
  function VisitAll(ns: seq<Node>, st: State): Result<State>
    decreases CountAll(ns), 2
  {
    if ns == [] then Ok(st)
    else
      var next :- Visit(ns[0], st);
      VisitAll(ns[1..], next)
  }

  /** `parse_names(tree)`: the fake names left after one traversal. */
  function Parse(tree: Node, builtins: set<string>): Result<seq<Name>> {
    var st :- Visit(tree, Initial(builtins));
    Ok(st.fakeNames)
  }

  /**
   * `parse_names` with `filter_fake_names` run once more after the
   * traversal, so that a read of a module-level name that a later
   * statement binds is retracted too. Without this final filter only pops
   * retract entries, and the module level is never popped.
   */
  function ParseResolved(tree: Node, builtins: set<string>): Result<seq<Name>> {
    var st :- Visit(tree, Initial(builtins));
    Ok(Unbound(st.fakeNames, Keys(st.realNames)))
  }
}

=== FILE: frontmatter.dfy ===
/**
 * `generate_frontmatter`: the declarations that bring the free names of a
 * module into scope. One `import m` per distinct module, in the order the
 * modules were first seen, then one `alias = id` per alias of each entry.
 */
module Frontmatter {
  import opened Wrappers
  import opened Dotted
  import opened Symbols

  /** `ast.Import(names=[ast.alias(m)])` and `ast.Assign(targets=[Name(target)], value=Name(source))`. */
  datatype Decl = ImportDecl(moduleName: string) | AssignDecl(target: string, source: string)

  /** The result in `"ast"` mode (a statement list) or in `"str"` mode (source text). */
  datatype Frontmatter = Statements(decls: seq<Decl>) | Text(text: string)

  const Newline: char := '\n'

  // ---------------------------------------------------------------------
  // `list(dict.fromkeys(xs))`

  /** The position of the first occurrence of `x` in `xs`. */
  function FirstIndex(xs: seq<string>, x: string): (i: nat)
    requires x in xs
    ensures i < |xs| && xs[i] == x && x !in xs[..i]
  {
    if xs[0] == x then 0 else 1 + FirstIndex(xs[1..], x)
  }

  predicate NoDuplicates(xs: seq<string>) {
    forall i, j :: 0 <= i < j < |xs| ==> xs[i] != xs[j]
  }

  /** The distinct elements of `xs`, each where it first occurs. */
  function Dedup(xs: seq<string>): (r: seq<string>)
    ensures forall x :: x in r <==> x in xs
    ensures NoDuplicates(r)
    ensures |r| <= |xs|
  {
    if xs == [] then []
    else
      var d := Dedup(xs[..|xs| - 1]);
      var last := xs[|xs| - 1];
      assert xs == xs[..|xs| - 1] + [last];
      if last in d then d else d + [last]
  }

  /** `dict.fromkeys` keeps first-seen order: distinct elements come out in the order of their first occurrence. */
  lemma {:induction false} DedupFirstSeenOrder(xs: seq<string>)
    ensures forall i, j :: 0 <= i < j < |Dedup(xs)| ==>
      FirstIndex(xs, Dedup(xs)[i]) < FirstIndex(xs, Dedup(xs)[j])
  {
    if xs != [] {
      var init := xs[..|xs| - 1];
      var last := xs[|xs| - 1];
      DedupFirstSeenOrder(init);
      var d, r := Dedup(init), Dedup(xs);
      forall x | x in init ensures FirstIndex(xs, x) == FirstIndex(init, x) {
        FirstIndexOfPrefix(init, xs, x);
      }
      forall i, j | 0 <= i < j < |r| ensures FirstIndex(xs, r[i]) < FirstIndex(xs, r[j]) {
        if j < |d| {
          assert r[i] == d[i] && r[j] == d[j];
        } else {
          assert r[j] == last && last !in init;
          assert r[i] in init;
        }
      }
    }
  }

  lemma {:induction false} FirstIndexOfPrefix(init: seq<string>, xs: seq<string>, x: string)
    requires init <= xs && x in init
    ensures FirstIndex(xs, x) == FirstIndex(init, x)
  {
    if xs[0] != x {
      FirstIndexOfPrefix(init[1..], xs[1..], x);
    }
  }

  /** A list without duplicates passes through `dict.fromkeys` unchanged. */
  lemma {:induction false} DedupOfDistinct(xs: seq<string>)
    requires NoDuplicates(xs)
    ensures Dedup(xs) == xs
  {
    if xs != [] {
      var init := xs[..|xs| - 1];
      DedupOfDistinct(init);
      assert xs[|xs| - 1] !in init;
    }
  }

  // ---------------------------------------------------------------------
  // The two builders

  /** `[name.module for name in names.names]`. */
  function ModulesOf(names: seq<Name>): (ms: seq<string>)
    ensures |ms| == |names| && forall i :: 0 <= i < |names| ==> ms[i] == names[i].modulePath
  {
    if names == [] then [] else [names[0].modulePath] + ModulesOf(names[1..])
  }

  /**
   * The order in which a `set` of aliases is iterated. Python leaves it to
   * the hash table, so the model fixes an arbitrary enumeration of the set.
   */
  ghost function AliasOrder(aliases: set<string>): (r: seq<string>)
    ensures |r| == |aliases| && forall a :: a in r <==> a in aliases
    ensures NoDuplicates(r)
  {
    if aliases == {} then []
    else
      var a :| a in aliases;
      [a] + AliasOrder(aliases - {a})
  }

  function ImportDecls(modules: seq<string>): (r: seq<Decl>)
    ensures |r| == |modules| && forall i :: 0 <= i < |r| ==> r[i] == ImportDecl(modules[i])
  {
    if modules == [] then [] else [ImportDecl(modules[0])] + ImportDecls(modules[1..])
  }

  function AssignDecls(aliases: seq<string>, id: string): (r: seq<Decl>)
    ensures |r| == |aliases| && forall i :: 0 <= i < |r| ==> r[i] == AssignDecl(aliases[i], id)
  {
    if aliases == [] then [] else [AssignDecl(aliases[0], id)] + AssignDecls(aliases[1..], id)
  }

  /** The nested loop: for every entry, for every alias, one assignment. */
  ghost function Assignments(names: seq<Name>): seq<Decl> {
    if names == [] then []
    else AssignDecls(AliasOrder(names[0].aliases), names[0].Id()) + Assignments(names[1..])
  }

  /** `_frontmatter_ast`. */
  ghost function FrontmatterAst(names: seq<Name>): seq<Decl> {
    ImportDecls(Dedup(ModulesOf(names))) + Assignments(names)
  }

  function ImportLines(modules: seq<string>): seq<string> {
    if modules == [] then [] else ["import " + modules[0]] + ImportLines(modules[1..])
  }

  function AssignLines(aliases: seq<string>, id: string): seq<string> {
    if aliases == [] then [] else [aliases[0] + " = " + id] + AssignLines(aliases[1..], id)
  }

  ghost function AssignmentLines(names: seq<Name>): seq<string> {
    if names == [] then []
    else AssignLines(AliasOrder(names[0].aliases), names[0].Id()) + AssignmentLines(names[1..])
  }

  /** `_frontmatter_str`. */
  ghost function FrontmatterStr(names: seq<Name>): string {
    Join(ImportLines(Dedup(ModulesOf(names))) + AssignmentLines(names), Newline)
  }

  /** `generate_frontmatter(names, mode)`. */
  ghost function GenerateFrontmatter(names: seq<Name>, mode: string): (r: Result<Frontmatter>)
    ensures mode == "ast" ==> r == Ok(Statements(FrontmatterAst(names)))
    ensures mode == "str" ==> r.Ok? && r.value.Text? && r.value.text == Join(Rendered(FrontmatterAst(names)), Newline)
    ensures mode != "ast" && mode != "str" ==> r == Raise(ValueError)
  {
    if mode == "ast" then Ok(Statements(FrontmatterAst(names)))
    else if mode == "str" then
      StrMatchesAst(names);
      Ok(Text(FrontmatterStr(names)))
    else Raise(ValueError)
  }

  // ---------------------------------------------------------------------
  // The text mode is the statement mode, unparsed line by line

  /** The source line of one declaration. */
  function Render(d: Decl): string {
    match d
    case ImportDecl(m) => "import " + m
    case AssignDecl(target, source) => target + " = " + source
  }

  function Rendered(ds: seq<Decl>): (r: seq<string>)
    ensures |r| == |ds| && forall i :: 0 <= i < |ds| ==> r[i] == Render(ds[i])
  {
    if ds == [] then [] else [Render(ds[0])] + Rendered(ds[1..])
  }

  lemma {:induction false} RenderedAppend(a: seq<Decl>, b: seq<Decl>)
    ensures Rendered(a + b) == Rendered(a) + Rendered(b)
  {
    if a == [] {
      assert a + b == b;
    } else {
      var ab := a + b;
      assert ab[0] == a[0] && ab[1..] == a[1..] + b;
      RenderedAppend(a[1..], b);
    }
  }

  lemma {:induction false} AssignmentLinesRender(names: seq<Name>)
    ensures AssignmentLines(names) == Rendered(Assignments(names))
  {
    if names != [] {
      var first := AssignDecls(AliasOrder(names[0].aliases), names[0].Id());
      AssignmentLinesRender(names[1..]);
      RenderedAppend(first, Assignments(names[1..]));
      AssignLinesRender(AliasOrder(names[0].aliases), names[0].Id());
    }
  }

  lemma {:induction false} AssignLinesRender(aliases: seq<string>, id: string)
    ensures AssignLines(aliases, id) == Rendered(AssignDecls(aliases, id))
  {
    if aliases != [] {
      AssignLinesRender(aliases[1..], id);
    }
  }

  lemma {:induction false} ImportLinesRender(modules: seq<string>)
    ensures ImportLines(modules) == Rendered(ImportDecls(modules))
  {
    if modules != [] {
      ImportLinesRender(modules[1..]);
    }
  }

  /** Both modes produce the same declarations in the same order. */
  lemma StrMatchesAst(names: seq<Name>)
    ensures FrontmatterStr(names) == Join(Rendered(FrontmatterAst(names)), Newline)
  {
    var modules := Dedup(ModulesOf(names));
    ImportLinesRender(modules);
    AssignmentLinesRender(names);
    RenderedAppend(ImportDecls(modules), Assignments(names));
  }

  // ---------------------------------------------------------------------
  // The shape of the output

  /** Every assignment binds an alias of some entry to that entry's id, and every such pair is bound. */
  lemma {:induction false} AssignmentsAreAliasBindings(names: seq<Name>)
    ensures forall t, s :: AssignDecl(t, s) in Assignments(names) <==>
      exists n :: n in names && t in n.aliases && s == n.Id()
  {
    if names != [] {
      AssignmentsAreAliasBindings(names[1..]);
      var first := AssignDecls(AliasOrder(names[0].aliases), names[0].Id());
      forall t, s ensures AssignDecl(t, s) in Assignments(names) <==>
        exists n :: n in names && t in n.aliases && s == n.Id()
      {
        if AssignDecl(t, s) in first {
          assert names[0] in names;
        }
        if exists n :: n in names && t in n.aliases && s == n.Id() {
          var n :| n in names && t in n.aliases && s == n.Id();
          if n == names[0] {
            var i :| 0 <= i < |AliasOrder(n.aliases)| && AliasOrder(n.aliases)[i] == t;
            assert first[i] == AssignDecl(t, s);
          } else {
            assert n in names[1..];
          }
        }
      }
    }
  }

  /** One assignment per (entry, alias) pair and nothing else. */
  lemma {:induction false} AssignmentsCount(names: seq<Name>)
    ensures forall d :: d in Assignments(names) ==> d.AssignDecl?
    ensures |Assignments(names)| == AliasCount(names)
  {
    if names != [] {
      AssignmentsCount(names[1..]);
    }
  }

  /** The number of (entry, alias) pairs. */
  function AliasCount(names: seq<Name>): nat {
    if names == [] then 0 else |names[0].aliases| + AliasCount(names[1..])
  }

  /** The distinct modules are exactly the modules of the entries. */
  lemma ModulesAreEntryModules(names: seq<Name>)
    ensures forall m :: m in Dedup(ModulesOf(names)) <==> exists n :: n in names && n.modulePath == m
  {
    forall m ensures m in ModulesOf(names) <==> exists n :: n in names && n.modulePath == m {
      if m in ModulesOf(names) {
        var i :| 0 <= i < |names| && ModulesOf(names)[i] == m;
        assert names[i] in names;
      }
      if exists n :: n in names && n.modulePath == m {
        var n :| n in names && n.modulePath == m;
        var i :| 0 <= i < |names| && names[i] == n;
        assert ModulesOf(names)[i] == m;
      }
    }
  }

  lemma ImportsThenAssignments(modules: seq<string>, assignments: seq<Decl>)
    requires forall d :: d in assignments ==> d.AssignDecl?
    ensures var out := ImportDecls(modules) + assignments;
      (forall i :: 0 <= i < |modules| ==> out[i] == ImportDecl(modules[i]))
      && (forall i :: |modules| <= i < |out| ==> out[i].AssignDecl?)
  {
    var out := ImportDecls(modules) + assignments;
    forall i | |modules| <= i < |out| ensures out[i].AssignDecl? {
      assert out[i] == assignments[i - |modules|];
    }
  }

  /**
   * The statement list starts with one import per distinct module, in
   * first-seen order, and continues with the alias assignments only.
   */
  lemma FrontmatterShape(names: seq<Name>)
    ensures var out, modules := FrontmatterAst(names), Dedup(ModulesOf(names));
      |out| == |modules| + AliasCount(names)
      && (forall i :: 0 <= i < |modules| ==> out[i] == ImportDecl(modules[i]))
      && (forall i :: |modules| <= i < |out| ==> out[i].AssignDecl?)
  {
    AssignmentsCount(names);
    ImportsThenAssignments(Dedup(ModulesOf(names)), Assignments(names));
  }

  /** Entries with pairwise distinct modules give one import per entry, in entry order. */
  lemma ImportsFollowEntries(names: seq<Name>)
    requires DistinctModules(names)
    ensures |FrontmatterAst(names)| >= |names|
    ensures FrontmatterAst(names)[..|names|] == ImportDecls(ModulesOf(names))
  {
    var ms := ModulesOf(names);
    assert NoDuplicates(ms) by {
      forall i, j | 0 <= i < j < |ms| ensures ms[i] != ms[j] {
        assert names[i].modulePath != names[j].modulePath;
      }
    }
    DedupOfDistinct(ms);
    assert FrontmatterAst(names) == ImportDecls(ms) + Assignments(names);
  }
}

=== FILE: lazy_free_names.dfy ===
/**
 * The visitor of the older `lazy_import.ast`, as pure functions from one
 * visitor state to the next. It starts from an empty chain, looks up whole
 * strings only, opens a frame for every function or class and closes one
 * only at a `return`, and never retracts a recorded name.
 */
module LazyFreeNames {
  import opened Wrappers
  import opened Dotted
  import opened Syntax
  import opened Scopes
  import opened LazySymbols

  /**
   * A key of `real_names`: an identifier or dotted string, or `None`, which
   * a store into an attribute chain that does not flatten writes.
   */
  type Key = Option<string>

  /** The visitor's fields: `real_names` and `fake_names.names`. */
  datatype State = State(realNames: Chain<Key>, fakeNames: seq<Name>)

  /** `NameVisitor()`: `ChainMap()` (one empty map) and no fake names. */
  function Initial(): State {
    State([{}], [])
  }

  /** `push_ctx`. */
  function PushCtx(st: State): State {
    st.(realNames := NewChild(st.realNames))
  }

  /** `pop_ctx`: `parents` only; nothing is filtered. */
  function PopCtx(st: State): State {
    st.(realNames := Parents(st.realNames))
  }

  function BindName(st: State, key: Key): State {
    st.(realNames := Bind(st.realNames, key))
  }

  /** `if key in self.real_names: del self.real_names[key]`. */
  function DeleteIfBound(st: State, key: Key): Result<State> {
    if key in Keys(st.realNames) then
      var c :- Delete(st.realNames, key);
      Ok(st.(realNames := c))
    else Ok(st)
  }

  /**
   * `flatten_attribute` of `value.attr`: a chain rooted at a name joins
   * every identifier with dots; any other root gives `None`, and joining
   * that `None` into a longer chain raises.
   */
  function Flatten(value: Node, attr: string): Result<Option<string>> {
    match value
    case Attribute(inner, innerAttr, _) =>
      var prefix :- Flatten(inner, innerAttr);
      if prefix.None? then Raise(TypeError) else Ok(Some(prefix.value + [Dot] + attr))
    case NameExpr(id, _) => Ok(Some(id + [Dot] + attr))
    case _ => Ok(None)
  }

  /** `visit_Name`: the whole identifier is looked up, and `add` is given it. */
  function VisitName(id: string, ctx: Context, st: State): Result<State> {
    match ctx
    case Store => Ok(BindName(st, Some(id)))
    case Load => Ok(if Some(id) in Keys(st.realNames) then st else st.(fakeNames := Added(st.fakeNames, id)))
    case Del => DeleteIfBound(st, Some(id))
  }

  /**
   * `visit_Attribute`: the whole flattened string is looked up. A free read
   * of a chain that flattens to `None` reaches `from_str(None)`, which
   * raises; a store or deletion uses `None` as the key.
   */
  function VisitAttribute(value: Node, attr: string, ctx: Context, st: State): Result<State> {
    var flat :- Flatten(value, attr);
    match ctx
    case Load =>
      if flat in Keys(st.realNames) then Ok(st)
      else if flat.None? then Raise(AttributeError("rsplit"))
      else Ok(st.(fakeNames := Added(st.fakeNames, flat.value)))
    case Store => Ok(BindName(st, flat))
    case Del => DeleteIfBound(st, flat)
  }

  /** The loop over `args.args`; annotations are not looked at. */
  function BindArgs(args: seq<Arg>, st: State): State {
    if args == [] then st else BindArgs(args[1..], BindName(st, Some(args[0].arg)))
  }

  function BindOptArg(o: Option<Arg>, st: State): State {
    if o.Some? then BindName(st, Some(o.value.arg)) else st
  }

  /** `visit_FunctionDef`: push, bind the parameters, and do not visit the body. */
  function EnterFunction(args: Arguments, st: State): State {
    BindOptArg(args.kwarg, BindOptArg(args.vararg, BindArgs(args.args, PushCtx(st))))
  }

  /** `visit_Import`: bind each alias's `asname`, or the imported name when it has none. */
  function BindAliases(st: State, names: seq<Alias>): State
    decreases names
  {
    if names == [] then st
    else
      var a := names[0];
      BindAliases(BindName(st, Some(a.BoundName())), names[1..])
  }

  /** `NodeVisitor.visit`: dispatch on the node kind. */
  function Visit(n: Node, st: State): Result<State>
    decreases Count(n), 1
  {
    match n
    case NameExpr(id, ctx) => VisitName(id, ctx, st)
    case Attribute(value, attr, ctx) => VisitAttribute(value, attr, ctx, st)
    case FunctionDef(_, args, _, _, _, isAsync) =>
      Ok(if isAsync then PushCtx(st) else EnterFunction(args, st))
    case ClassDef(_, _, _, _, _) => Ok(PushCtx(st))
    case Return(_) => Ok(PopCtx(st))
    case Import(names) => Ok(BindAliases(st, names))
    case ImportFrom(_, names) => Ok(BindAliases(st, names))
    case _ =>
      ChildrenCount(n);
      VisitAll(Children(n), st)
  }

  /** `generic_visit`'s loop: visit the nodes in order, stopping at the first exception. */
  function VisitAll(ns: seq<Node>, st: State): Result<State>
    decreases CountAll(ns), 2
  {
    if ns == [] then Ok(st)
    else
      var next :- Visit(ns[0], st);
      VisitAll(ns[1..], next)
  }

  /** `NameVisitor().visit(tree)`, then `fake_names.names`. */
  function FakeNames(tree: Node): Result<seq<Name>> {
    var st :- Visit(tree, Initial());
    Ok(st.fakeNames)
  }
}

=== FILE: lazy_properties.dfy ===
/**
 * What the older visitor does, proved about the functions of
 * `LazyFreeNames`, and where it parts from the newer analysis.
 */
module LazyProperties {
  import opened Wrappers
  import opened Dotted
  import opened Syntax
  import opened Scopes
  import opened LazySymbols
  import opened LazyFreeNames
  import Symbols
  import FreeNames
  import FreeNameProperties

  /**
   * The older `flatten_attribute`, by the root of the chain: a name root
   * gives every identifier joined by dots; any other root, a call included,
   * gives `None` for `x.attr` and raises for a longer chain.
   */
  lemma {:induction false} FlattenByRoot(value: Node, attr: string)
    ensures FreeNameProperties.Root(value).NameExpr? ==>
      Flatten(value, attr) ==
        Ok(Some(Join([FreeNameProperties.Root(value).id] + FreeNameProperties.AttrsAbove(value) + [attr], Dot)))
    ensures !FreeNameProperties.Root(value).NameExpr? ==>
      Flatten(value, attr) == if value.Attribute? then Raise(TypeError) else Ok(None)
  {
    if value.Attribute? {
      var inner, innerAttr := value.value, value.attr;
      FlattenByRoot(inner, innerAttr);
      var ids := FreeNameProperties.AttrsAbove(inner) + [innerAttr];
      assert FreeNameProperties.AttrsAbove(value) == ids;
      assert FreeNameProperties.Root(value) == FreeNameProperties.Root(inner);
      if FreeNameProperties.Root(value).NameExpr? {
        var id := FreeNameProperties.Root(value).id;
        assert [id] + FreeNameProperties.AttrsAbove(inner) + [innerAttr] == [id] + ids;
        JoinSnoc([id] + ids, attr, Dot);
      }
    } else if value.NameExpr? {
      assert [value.id] + FreeNameProperties.AttrsAbove(value) + [attr] == [value.id, attr];
    }
  }

  /**
   * `visit_Name` by context. A store binds the identifier in the innermost
   * frame only. A read goes to `add` exactly when the identifier itself is
   * in no frame, and changes no frame. A deletion removes a name bound in the
   * innermost frame, ignores an unbound one and raises `KeyError` for one
   * bound only in an enclosing frame.
   */
  lemma VisitNameByContext(id: string, st: State)
    ensures var r := VisitName(id, Store, st);
      r.Ok? && r.value.fakeNames == st.fakeNames && Outer(r.value.realNames) == Outer(st.realNames)
      && Top(r.value.realNames) == Top(st.realNames) + {Some(id)}
    ensures var r := VisitName(id, Load, st);
      r.Ok? && r.value.realNames == st.realNames
      && (Some(id) in Keys(st.realNames) ==> r.value.fakeNames == st.fakeNames)
      && (Some(id) !in Keys(st.realNames) ==> r.value.fakeNames == Added(st.fakeNames, id))
    ensures var r := VisitName(id, Del, st);
      (r.Ok? <==> Some(id) in Top(st.realNames) || Some(id) !in Keys(st.realNames))
      && (r.Raise? ==> r.exception == KeyError)
      && (r.Ok? ==> r.value.fakeNames == st.fakeNames && Outer(r.value.realNames) == Outer(st.realNames)
                    && Top(r.value.realNames) == Top(st.realNames) - {Some(id)})
  {
    var c := st.realNames;
    assert Top(Bind(c, Some(id))) == Top(c) + {Some(id)} by {
      assert Bind(c, Some(id)) == Outer(c) + [Top(c) + {Some(id)}];
    }
    if Some(id) in Top(c) {
      assert Some(id) in c[|c| - 1];
    }
  }

  /**
   * An attribute read looks up the whole dotted string, not its prefixes:
   * with `np` bound and `np.array` not bound, the older visitor records
   * `np.array`, while the newer one sees the bound prefix `np` and records
   * nothing.
   */
  lemma BoundRootDoesNotHideAttribute(id: string, attr: string, st: State, newSt: FreeNames.State)
    requires Dot !in id && Dot !in attr && attr != []
    requires Some(id) in Keys(st.realNames) && Some(id + [Dot] + attr) !in Keys(st.realNames)
    requires id in Keys(newSt.realNames)
    ensures VisitAttribute(NameExpr(id, Load), attr, Load, st) ==
      Ok(st.(fakeNames := Added(st.fakeNames, id + [Dot] + attr)))
    ensures FreeNames.VisitAttribute(NameExpr(id, Load), attr, Load, newSt) == Ok(newSt)
  {
    var n := Symbols.FromStr(id + [Dot] + attr);
    Symbols.FromStrSplitsAtLastDot(id, attr);
    Symbols.InDictMeansDottedPrefixBound(n, Keys(newSt.realNames));
    assert Symbols.IsDottedPrefix(id, id + [Dot] + attr) by {
      assert (id + [Dot] + attr)[|id|] == Dot;
    }
  }

  // ---------------------------------------------------------------------
  // Recorded names are never retracted

  /** `b` keeps every entry of `a` at its position with its module and member, and only adds aliases. */
  predicate Extends(a: seq<Name>, b: seq<Name>) {
    |a| <= |b| && forall i :: 0 <= i < |a| ==>
      b[i].modulePath == a[i].modulePath && b[i].member == a[i].member && a[i].aliases <= b[i].aliases
  }

  lemma ExtendsTransitive(a: seq<Name>, b: seq<Name>, c: seq<Name>)
    requires Extends(a, b) && Extends(b, c)
    ensures Extends(a, c)
  {
  }

  lemma BindAliasesKeepsFakes(st: State, names: seq<Alias>)
    ensures BindAliases(st, names).fakeNames == st.fakeNames
    decreases names
  {
    if names != [] {
      var a := names[0];
      BindAliasesKeepsFakes(BindName(st, Some(a.BoundName())), names[1..]);
    }
  }

  /**
   * `visit_Import` binds each alias's `asname`, or its name when the
   * `asname` is missing or empty, in the current frame, and leaves the
   * enclosing frames alone.
   */
  lemma {:induction false} BindAliasesBinds(st: State, names: seq<Alias>)
    ensures Outer(BindAliases(st, names).realNames) == Outer(st.realNames)
    ensures Top(st.realNames) <= Top(BindAliases(st, names).realNames)
    ensures forall a :: a in names ==> Some(a.BoundName()) in Top(BindAliases(st, names).realNames)
    decreases names
  {
    if names != [] {
      var a := names[0];
      var next := BindName(st, Some(a.BoundName()));
      BindAliasesBinds(next, names[1..]);
      forall b | b in names ensures Some(b.BoundName()) in Top(BindAliases(st, names).realNames) {
        if b != a {
          assert b in names[1..];
        }
      }
    }
  }

  lemma BindArgsKeepsFakes(args: seq<Arg>, st: State)
    ensures BindArgs(args, st).fakeNames == st.fakeNames
  {
    if args != [] {
      BindArgsKeepsFakes(args[1..], BindName(st, Some(args[0].arg)));
    }
  }

  /**
   * No visit drops or reorders a recorded name: there is no filter, and
   * `add` only appends or adds an alias.
   */
  lemma {:induction false} VisitNeverRetracts(n: Node, st: State)
    requires Visit(n, st).Ok?
    ensures Extends(st.fakeNames, Visit(n, st).value.fakeNames)
    decreases Count(n), 1
  {
    ChildrenCount(n);
    if n.NameExpr? {
      VisitNameExtends(n.id, n.ctx, st);
    } else if n.Attribute? {
      VisitAttributeExtends(n.value, n.attr, n.ctx, st);
    } else if n.FunctionDef? || n.ClassDef? || n.Return? || n.Import? || n.ImportFrom? {
      BindingNodesKeepFakes(n, st);
    } else {
      assert Visit(n, st) == VisitAll(Children(n), st);
      VisitAllNeverRetracts(Children(n), st);
    }
  }

  lemma EnterFunctionKeepsFakes(args: Arguments, st: State)
    ensures EnterFunction(args, st).fakeNames == st.fakeNames
  {
    BindArgsKeepsFakes(args.args, PushCtx(st));
  }

  /** The node kinds the older visitor handles without recording anything. */
  lemma BindingNodesKeepFakes(n: Node, st: State)
    requires n.FunctionDef? || n.ClassDef? || n.Return? || n.Import? || n.ImportFrom?
    ensures Visit(n, st).Ok? && Visit(n, st).value.fakeNames == st.fakeNames
  {
    match n
    case FunctionDef(_, args, _, _, _, isAsync) =>
      assert Visit(n, st) == Ok(if isAsync then PushCtx(st) else EnterFunction(args, st));
      EnterFunctionKeepsFakes(args, st);
    case ClassDef(_, _, _, _, _) =>
      assert Visit(n, st) == Ok(PushCtx(st));
    case Return(_) =>
      assert Visit(n, st) == Ok(PopCtx(st));
    case Import(names) =>
      assert Visit(n, st) == Ok(BindAliases(st, names));
      BindAliasesKeepsFakes(st, names);
    case ImportFrom(_, names) =>
      assert Visit(n, st) == Ok(BindAliases(st, names));
      BindAliasesKeepsFakes(st, names);
  }

  lemma VisitNameExtends(id: string, ctx: Context, st: State)
    requires VisitName(id, ctx, st).Ok?
    ensures Extends(st.fakeNames, VisitName(id, ctx, st).value.fakeNames)
  {
    if ctx.Load? && Some(id) !in Keys(st.realNames) {
      var r := Added(st.fakeNames, id);
      assert Extends(st.fakeNames, r);
    }
  }

  lemma VisitAttributeExtends(value: Node, attr: string, ctx: Context, st: State)
    requires VisitAttribute(value, attr, ctx, st).Ok?
    ensures Extends(st.fakeNames, VisitAttribute(value, attr, ctx, st).value.fakeNames)
  {
    var flat := Flatten(value, attr).value;
    if ctx.Load? && flat !in Keys(st.realNames) && flat.Some? {
      var r := Added(st.fakeNames, flat.value);
      assert Extends(st.fakeNames, r);
    }
  }

  lemma {:induction false} VisitAllNeverRetracts(ns: seq<Node>, st: State)
    requires VisitAll(ns, st).Ok?
    ensures Extends(st.fakeNames, VisitAll(ns, st).value.fakeNames)
    decreases CountAll(ns), 2
  {
    if ns != [] {
      var next := Visit(ns[0], st).value;
      VisitNeverRetracts(ns[0], st);
      VisitAllNeverRetracts(ns[1..], next);
      ExtendsTransitive(st.fakeNames, next.fakeNames, VisitAll(ns[1..], next).value.fakeNames);
    }
  }

  // ---------------------------------------------------------------------
  // Frames

  /**
   * A (non-async) function definition pushes one frame holding its
   * parameters and records nothing: its body, decorators and annotations
   * are never visited, so they do not affect the result.
   */
  lemma FunctionDefSkipsBody(n: Node, st: State, body: seq<Node>, decorators: seq<Node>, ret: Option<Node>)
    requires n.FunctionDef? && !n.isAsync
    ensures var r := Visit(n, st);
      r.Ok? && r.value.fakeNames == st.fakeNames && Outer(r.value.realNames) == st.realNames
      && (forall a :: a in n.args.args ==> Some(a.arg) in Top(r.value.realNames))
      && (n.args.vararg.Some? ==> Some(n.args.vararg.value.arg) in Top(r.value.realNames))
      && (n.args.kwarg.Some? ==> Some(n.args.kwarg.value.arg) in Top(r.value.realNames))
    ensures Visit(n.(body := body, decoratorList := decorators, returnAnnotation := ret), st) == Visit(n, st)
  {
    var pushed := PushCtx(st);
    BindArgsKeepsFakes(n.args.args, pushed);
    BindArgsFrame(n.args.args, pushed);
  }

  lemma {:induction false} BindArgsFrame(args: seq<Arg>, st: State)
    ensures Outer(BindArgs(args, st).realNames) == Outer(st.realNames)
    ensures Top(st.realNames) <= Top(BindArgs(args, st).realNames)
    ensures forall a :: a in args ==> Some(a.arg) in Top(BindArgs(args, st).realNames)
  {
    if args != [] {
      BindArgsFrame(args[1..], BindName(st, Some(args[0].arg)));
    }
  }

  /**
   * `return` pops a frame (or empties the last one) and does nothing else:
   * its value is not visited, so a read in it is never recorded.
   */
  lemma ReturnOnlyPops(value: Option<Node>, st: State)
    ensures var r := Visit(Return(value), st);
      r.Ok? && r.value.fakeNames == st.fakeNames
      && r.value.realNames == (if |st.realNames| == 1 then [{}] else Outer(st.realNames))
  {
  }

  /**
   * With no `return`, a function's frame is never popped: after `def f(x):
   * pass`, a module-level read of `x` counts as bound. The newer analysis
   * pops the frame and records `x`.
   */
  lemma ParameterOutlivesFunction(builtins: set<string>)
    requires "x" !in builtins
    ensures FakeNames(LeakingParameter()) == Ok([])
    ensures FreeNames.Parse(LeakingParameter(), builtins) == Ok([Symbols.Name("x", None, {})])
  {
    var fdef := LeakingParameter().children[0];
    var read := NameExpr("x", Load);
    var entered := EnterFunction(fdef.args, Initial());
    assert Some("x") in Keys(entered.realNames) by {
      assert Some("x") in Top(entered.realNames);
      assert Some("x") in entered.realNames[|entered.realNames| - 1];
    }
    assert Visit(read, entered) == Ok(entered);
    VisitGeneric(LeakingParameter().children, Initial());
    NewLeakingParameter(builtins);
  }

  lemma VisitGeneric(children: seq<Node>, st: State)
    ensures Visit(Generic(children), st) == VisitAll(children, st)
  {
  }

  /** `def f(x): pass` followed by a read of `x`. */
  function LeakingParameter(): Node {
    Generic([
      FunctionDef("f", Arguments([], [Arg("x", None)], None, [], [], None, []), [], [], None, false),
      NameExpr("x", Load)])
  }

  lemma NewLeakingParameter(builtins: set<string>)
    requires "x" !in builtins
    ensures FreeNames.Parse(LeakingParameter(), builtins) == Ok([Symbols.Name("x", None, {})])
  {
    var st0 := FreeNames.Initial(builtins);
    var st1 := FreeNames.BindName(st0, "f");
    NewDefinitionBindsName(builtins);
    assert "x" !in Keys(st1.realNames) by {
      assert Keys(st1.realNames) == Keys(st0.realNames) + {"f"};
      assert forall i :: 0 <= i < |st0.realNames| ==> st0.realNames[i] == builtins || st0.realNames[i] == {"self"};
    }
    NewReadRecords(st1);
    FreeNameProperties.VisitGeneric(LeakingParameter().children, st0);
  }

  /** The newer visitor records a read of an unbound `x`. */
  lemma NewReadRecords(st: FreeNames.State)
    requires "x" !in Keys(st.realNames) && st.fakeNames == []
    ensures FreeNames.Visit(NameExpr("x", Load), st) == Ok(st.(fakeNames := [Symbols.Name("x", None, {})]))
  {
    assert Symbols.FromStr("x") == Symbols.Name("x", None, {});
    assert Symbols.FromStr("x").Parts() == ["x"];
  }

  /** The newer visitor pops the function's frame, leaving only `f` bound. */
  lemma NewDefinitionBindsName(builtins: set<string>)
    ensures FreeNames.Visit(LeakingParameter().children[0], FreeNames.Initial(builtins))
      == Ok(FreeNames.BindName(FreeNames.Initial(builtins), "f"))
  {
    var st0 := FreeNames.Initial(builtins);
    var fdef := LeakingParameter().children[0];
    var entered := FreeNames.PushCtx(FreeNames.BindName(st0, "f"));
    var withX := FreeNames.BindName(entered, "x");
    assert FreeNames.BindArgs([], withX) == Ok(withX);
    assert FreeNames.BindArgs(fdef.args.args, entered) == Ok(withX);
    assert FreeNames.EnterFunction(Some("f"), fdef.args, None, st0) == Ok(withX);
    assert FreeNameProperties.Entered(fdef, st0) == Ok(withX);
    assert Children(fdef) == [];
    FreeNameProperties.ScopedVisitUnfolds(fdef, st0);
    assert Parents(withX.realNames) == Bind(st0.realNames, "f");
  }
}

=== FILE: lazy_symbols.dfy ===
/**
 * The symbol model of the older `lazy_import.ast`. Its `Name` has the same
 * fields as the newer one, but `from_str` splits at every dot and keeps
 * the first two pieces, `in` never matches the dotted id, and `add` takes
 * an identifier and has no duplicate-module check.
 */
module LazySymbols {
  import opened Wrappers
  import opened Dotted
  import Symbols

  datatype Name = Name(modulePath: string, member: Option<string>, aliases: set<string>) {

    /** `item in name`: an alias, or the module when there is no member, else the member. */
    predicate Contains(item: string) {
      item in aliases || (if member.None? then item == modulePath else item == member.value)
    }
  }

  /**
   * `Name.from_str`: `rsplit(".")` without a limit splits at every dot; a
   * dotted string keeps its first piece as the module and its second as the
   * member, and a dotless one is all module.
   */
  function FromStr(s: string): (n: Name)
    ensures n.aliases == {}
    ensures n.member.None? <==> Dot !in s
    ensures n.member.None? ==> n.modulePath == s
    ensures n.member.Some? ==>
      Dot !in n.modulePath && Dot !in n.member.value
      && Symbols.IsDottedPrefix(n.modulePath + [Dot] + n.member.value, s)
  {
    var parts := Split(s, Dot);
    if |parts| > 1 then
      JoinFirstTwo(parts, Dot);
      Name(parts[0], Some(parts[1]), {})
    else Name(s, None, {})
  }

  /** A dot-free piece that ends at a dot (or at the end) of `s` is the first piece of `s`. */
  lemma DotFreePrefixUnique(p: string, q: string, s: string)
    requires Dot !in p && Dot !in q
    requires Symbols.IsDottedPrefix(p, s) && Symbols.IsDottedPrefix(q, s)
    ensures p == q
  {
  }

  /**
   * The first two pieces of a dotted string are its module and member,
   * whatever follows: `"a.b.c"` gives module `"a"` and member `"b"`.
   */
  lemma FromStrKeepsFirstTwo(a: string, b: string, rest: string)
    requires Dot !in a && Dot !in b
    requires rest == [] || rest[0] == Dot
    ensures FromStr(a + [Dot] + b + rest) == Name(a, Some(b), {})
  {
    var s := a + [Dot] + b + rest;
    var n := FromStr(s);
    assert s[|a|] == Dot;
    var m := n.member.value;
    assert Symbols.IsDottedPrefix(n.modulePath, s) by {
      assert n.modulePath <= n.modulePath + [Dot] + m;
      assert s[|n.modulePath|] == (n.modulePath + [Dot] + m)[|n.modulePath|];
    }
    DotFreePrefixUnique(n.modulePath, a, s);
    var t := b + rest;
    assert s == a + [Dot] + t;
    assert Symbols.IsDottedPrefix(m, t) by {
      assert (a + [Dot] + m) <= s;
      forall i | 0 <= i < |m| ensures m[i] == t[i] {
        assert m[i] == (a + [Dot] + m)[|a| + 1 + i];
      }
      if |m| < |t| {
        assert t[|m|] == s[|a| + 1 + |m|];
      }
    }
    assert Symbols.IsDottedPrefix(b, t);
    DotFreePrefixUnique(m, b, t);
  }

  lemma ThreePieces()
    ensures FromStr("a.b.c") == Name("a", Some("b"), {})
  {
    assert "a.b.c" == "a" + [Dot] + "b" + ".c";
    FromStrKeepsFirstTwo("a", "b", ".c");
  }

  /**
   * `in` never matches the dotted string a name was built from: the member
   * is a single piece, so a read of `pkg.mod` is not found in the entry
   * `from_str("pkg.mod")` unless it is one of its aliases.
   */
  lemma DottedIdNotContained(s: string)
    requires Dot in s
    ensures !FromStr(s).Contains(s)
  {
  }

  /**
   * The two versions of `in` part ways on dotted strings: the newer name
   * built from `pkg.mod` contains `pkg.mod`, the older one does not.
   */
  lemma ContainsDiffers(s: string)
    requires Dot in s
    ensures Symbols.FromStr(s).Contains(s) && !FromStr(s).Contains(s)
  {
    Symbols.FromStrContainsItself(s);
    DottedIdNotContained(s);
  }

  /** The entry `add(id)` stops at: the first one that contains `id`. */
  predicate Hit(id: string, entry: Name) {
    entry.Contains(id)
  }

  /** `NameCollection.add(new_name)` with `new_name.id == id`. */
  function Added(names: seq<Name>, id: string): (r: seq<Name>)
    ensures |r| == |names| || r == names + [FromStr(id)]
    ensures |r| >= |names| && forall i :: 0 <= i < |names| ==>
      r[i].modulePath == names[i].modulePath && r[i].member == names[i].member
      && names[i].aliases <= r[i].aliases
  {
    if names == [] then [FromStr(id)]
    else if Hit(id, names[0]) then [names[0].(aliases := names[0].aliases + {id})] + names[1..]
    else [names[0]] + Added(names[1..], id)
  }

  /**
   * `add` acts at the first entry containing `id`, which takes `id` as an
   * alias; if there is none, `from_str(id)` is appended.
   */
  lemma {:induction false} AddedActsAtFirstHit(names: seq<Name>, id: string, k: nat)
    requires k <= |names|
    requires forall i :: 0 <= i < k ==> !Hit(id, names[i])
    requires k < |names| ==> Hit(id, names[k])
    ensures k == |names| ==> Added(names, id) == names + [FromStr(id)]
    ensures k < |names| ==> Added(names, id) == names[k := names[k].(aliases := names[k].aliases + {id})]
  {
    if k > 0 {
      AddedActsAtFirstHit(names[1..], id, k - 1);
      assert names == [names[0]] + names[1..];
    }
  }

  /**
   * Unlike the newer `add`, reading a module's member appends a new entry
   * even when the module is listed already, and even when the very same
   * dotted name was read before: reading `os.path` and then `os.sep` (or
   * `os.path` again) lists `os` twice.
   */
  lemma ModulesCanRepeat(m: string, a: string, b: string)
    requires Dot !in m && Dot !in a && Dot !in b
    ensures Added(Added([], m + [Dot] + a), m + [Dot] + b) == [Name(m, Some(a), {}), Name(m, Some(b), {})]
  {
    var ida, idb := m + [Dot] + a, m + [Dot] + b;
    assert ida == ida + [] && idb == idb + [];
    FromStrKeepsFirstTwo(m, a, []);
    FromStrKeepsFirstTwo(m, b, []);
    DottedReadMissesMember(Name(m, Some(a), {}), idb);
  }

  lemma DottedReadMissesMember(entry: Name, id: string)
    requires entry.member.Some? && Dot !in entry.member.value && Dot in id && id !in entry.aliases
    ensures Added([entry], id) == [entry, FromStr(id)]
  {
    assert !Hit(id, entry);
  }

  /** The older `NameCollection`. */
  class NameCollection {
    var names: seq<Name>

    constructor ()
      ensures names == []
    {
      names := [];
    }

    /** `NameCollection.add(new_name)`, given `new_name.id`. */
    method Add(id: string)
      modifies this
      ensures names == Added(old(names), id)
    {
      var i := 0;
      while i < |names|
        invariant i <= |names| && names == old(names)
        invariant forall j :: 0 <= j < i ==> !Hit(id, names[j])
      {
        if names[i].Contains(id) {
          AddedActsAtFirstHit(names, id, i);
          names := names[i := names[i].(aliases := names[i].aliases + {id})];
          return;
        }
        i := i + 1;
      }
      AddedActsAtFirstHit(names, id, i);
      names := names + [FromStr(id)];
    }
  }
}

=== FILE: lazy_visitor.dfy ===
/**
 * `lazy_import.ast.NameVisitor` as a class whose methods update the chain
 * and the fake-name collection in place, each proved to reach the state
 * the matching function of `LazyFreeNames` computes, or to raise what that
 * function raises.
 */
module LazyVisitors {
  import opened Wrappers
  import opened Syntax
  import opened Scopes
  import opened LazySymbols
  import LazyFreeNames

  /** The outcome of a method: what the pure step `r` computes or raises. */
  predicate Reaches(r: Result<LazyFreeNames.State>, raised: Option<Exception>, now: LazyFreeNames.State) {
    if r.Ok? then raised == None && now == r.value else raised == Some(r.exception)
  }

  class NameVisitor {
    var realNames: Chain<LazyFreeNames.Key>
    const fakeNames: NameCollection

    function State(): LazyFreeNames.State
      reads this, fakeNames
    {
      LazyFreeNames.State(realNames, fakeNames.names)
    }

    /** `NameVisitor()`. */
    constructor ()
      ensures State() == LazyFreeNames.Initial() && fresh(fakeNames)
    {
      realNames := [{}];
      fakeNames := new NameCollection();
    }

    method PushCtx()
      modifies this
      ensures State() == LazyFreeNames.PushCtx(old(State()))
    {
      realNames := NewChild(realNames);
    }

    method PopCtx()
      modifies this
      ensures State() == LazyFreeNames.PopCtx(old(State()))
    {
      realNames := Parents(realNames);
    }

    /** `self.real_names[key] = node`. */
    method SetName(key: LazyFreeNames.Key)
      modifies this
      ensures State() == LazyFreeNames.BindName(old(State()), key)
    {
      realNames := Bind(realNames, key);
    }

    method DeleteIfBound(key: LazyFreeNames.Key) returns (raised: Option<Exception>)
      modifies this
      ensures Reaches(LazyFreeNames.DeleteIfBound(old(State()), key), raised, State())
    {
      raised := None;
      if key in Keys(realNames) {
        var r := Delete(realNames, key);
        if r.Raise? {
          return Some(r.exception);
        }
        realNames := r.value;
      }
    }

    /** `visit_Import`, which `visit_ImportFrom` calls. */
    method VisitImport(names: seq<Alias>)
      modifies this
      ensures State() == LazyFreeNames.BindAliases(old(State()), names)
    {
      var i := 0;
      while i < |names|
        invariant i <= |names|
        invariant LazyFreeNames.BindAliases(old(State()), names) == LazyFreeNames.BindAliases(State(), names[i..])
      {
        assert names[i..][1..] == names[i + 1..];
        var a := names[i];
        SetName(Some(a.BoundName()));
        i := i + 1;
      }
    }

    method VisitName(id: string, ctx: Context) returns (raised: Option<Exception>)
      modifies this, fakeNames
      ensures Reaches(LazyFreeNames.VisitName(id, ctx, old(State())), raised, State())
    {
      raised := None;
      match ctx
      case Store => SetName(Some(id));
      case Load =>
        if Some(id) !in Keys(realNames) {
          fakeNames.Add(id);
        }
      case Del => raised := DeleteIfBound(Some(id));
    }

    method VisitAttribute(value: Node, attr: string, ctx: Context) returns (raised: Option<Exception>)
      modifies this, fakeNames
      ensures Reaches(LazyFreeNames.VisitAttribute(value, attr, ctx, old(State())), raised, State())
    {
      raised := None;
      var flat := LazyFreeNames.Flatten(value, attr);
      if flat.Raise? {
        return Some(flat.exception);
      }
      var attrName := flat.value;
      match ctx
      case Load =>
        if attrName !in Keys(realNames) {
          if attrName.None? {
            return Some(AttributeError("rsplit"));
          }
          fakeNames.Add(attrName.value);
        }
      case Store => SetName(attrName);
      case Del => raised := DeleteIfBound(attrName);
    }

    /** `visit_FunctionDef`: push and bind the parameters; the body is not visited. */
    method VisitFunctionDef(args: Arguments)
      modifies this
      ensures State() == LazyFreeNames.EnterFunction(args, old(State()))
    {
      PushCtx();
      var i := 0;
      ghost var pushed := State();
      while i < |args.args|
        invariant i <= |args.args|
        invariant LazyFreeNames.BindArgs(args.args, pushed) == LazyFreeNames.BindArgs(args.args[i..], State())
      {
        assert args.args[i..][1..] == args.args[i + 1..];
        SetName(Some(args.args[i].arg));
        i := i + 1;
      }
      if args.vararg.Some? {
        SetName(Some(args.vararg.value.arg));
      }
      if args.kwarg.Some? {
        SetName(Some(args.kwarg.value.arg));
      }
    }

    /** `generic_visit`: visit the children in field order. */
    method GenericVisit(n: Node) returns (raised: Option<Exception>)
      modifies this, fakeNames
      decreases Count(n), 0
      ensures Reaches(LazyFreeNames.VisitAll(Children(n), old(State())), raised, State())
    {
      ChildrenCount(n);
      raised := VisitChildren(Children(n));
    }

    /** The loop of `generic_visit`, stopping at the first exception. */
    method VisitChildren(children: seq<Node>) returns (raised: Option<Exception>)
      modifies this, fakeNames
      decreases CountAll(children), 3
      ensures Reaches(LazyFreeNames.VisitAll(children, old(State())), raised, State())
    {
      var i := 0;
      while i < |children|
        invariant i <= |children|
        invariant LazyFreeNames.VisitAll(children, old(State())) == LazyFreeNames.VisitAll(children[i..], State())
      {
        assert children[i..][1..] == children[i + 1..];
        CountAllAt(children, i);
        raised := Visit(children[i]);
        if raised.Some? {
          return;
        }
        i := i + 1;
      }
      raised := None;
    }

    /**
     * `visit_FunctionDef`, `visit_AsyncFunctionDef` and `visit_ClassDef`,
     * which only push (binding the parameters of a plain function), and
     * `visit_Return`, which only pops.
     */
    method VisitFrameNode(n: Node)
      requires n.FunctionDef? || n.ClassDef? || n.Return?
      modifies this
      ensures LazyFreeNames.Visit(n, old(State())) == Ok(State())
    {
      if n.FunctionDef? && !n.isAsync {
        VisitFunctionDef(n.args);
      } else if n.Return? {
        PopCtx();
      } else {
        PushCtx();
      }
    }

    /** `visit`: dispatch on the node kind. */
    method Visit(n: Node) returns (raised: Option<Exception>)
      modifies this, fakeNames
      decreases Count(n), 1
      ensures Reaches(LazyFreeNames.Visit(n, old(State())), raised, State())
    {
      raised := None;
      match n
      case NameExpr(id, ctx) => raised := VisitName(id, ctx);
      case Attribute(value, attr, ctx) => raised := VisitAttribute(value, attr, ctx);
      case FunctionDef(_, _, _, _, _, _) => VisitFrameNode(n);
      case ClassDef(_, _, _, _, _) => VisitFrameNode(n);
      case Return(_) => VisitFrameNode(n);
      case Import(names) => VisitImport(names);
      case ImportFrom(_, names) => VisitImport(names);
      case _ => raised := GenericVisit(n);
    }
  }

  /** `visitor = NameVisitor(); visitor.visit(tree)`, then `visitor.fake_names.names`. */
  method FakeNames(tree: Node) returns (r: Result<seq<Name>>)
    ensures r == LazyFreeNames.FakeNames(tree)
  {
    var visitor := new NameVisitor();
    var raised := visitor.Visit(tree);
    if raised.Some? {
      return Raise(raised.value);
    }
    return Ok(visitor.fakeNames.names);
  }
}

=== FILE: name_visitor.dfy ===
/**
 * `no_more_imports.ast.NameVisitor` as a class whose methods update the
 * scope chain and the fake-name collection in place. Each method is proved
 * to take the visitor from a state to the state the matching function of
 * `FreeNames` computes, or to raise the exception that function raises.
 */
module NameVisitors {
  import opened Wrappers
  import opened Symbols
  import opened Syntax
  import opened Scopes
  import FreeNames

  /** The outcome of a method: what the pure step `r` computes or raises. */
  predicate Reaches(r: Result<FreeNames.State>, raised: Option<Exception>, now: FreeNames.State) {
    if r.Ok? then raised == None && now == r.value else raised == Some(r.exception)
  }

  class NameVisitor {
    var realNames: Chain<string>
    const fakeNames: NameCollection

    function State(): FreeNames.State
      reads this, fakeNames
    {
      FreeNames.State(realNames, fakeNames.names)
    }

    /** `NameVisitor()`, with the host's builtins passed in. */
    constructor (builtins: set<string>)
      ensures State() == FreeNames.Initial(builtins) && fresh(fakeNames)
    {
      realNames := [builtins, {"self"}];
      fakeNames := new NameCollection();
    }

    method PushCtx()
      modifies this
      ensures State() == FreeNames.PushCtx(old(State()))
    {
      realNames := NewChild(realNames);
    }

    method PopCtx()
      modifies this, fakeNames
      ensures State() == FreeNames.PopCtx(old(State()))
    {
      realNames := Parents(realNames);
      FilterFakeNames();
    }

    method FilterFakeNames()
      modifies fakeNames
      ensures fakeNames.names == FreeNames.Unbound(old(fakeNames.names), Keys(realNames))
    {
      fakeNames.names := FreeNames.Unbound(fakeNames.names, Keys(realNames));
    }

    /** `self.real_names[key] = node`. */
    method SetName(key: string)
      modifies this
      ensures State() == FreeNames.BindName(old(State()), key)
    {
      realNames := Bind(realNames, key);
    }

    /** `if not name.in_dict(self.real_names): self.fake_names.add(name)`. */
    method NoteRead(name: Name)
      modifies fakeNames
      ensures State() == FreeNames.NoteRead(name, old(State()))
    {
      if !name.InDict(Keys(realNames)) {
        fakeNames.Add(name);
      }
    }

    method DeleteIfBound(key: string) returns (raised: Option<Exception>)
      modifies this
      ensures Reaches(FreeNames.DeleteIfBound(old(State()), key), raised, State())
    {
      raised := None;
      if key in Keys(realNames) {
        var r := Delete(realNames, key);
        if r.Raise? {
          return Some(r.exception);
        }
        realNames := r.value;
      }
    }

    method VisitImport(names: seq<Alias>)
      modifies this
      ensures State() == FreeNames.BindAliases(old(State()), names)
    {
      var i := 0;
      while i < |names|
        invariant i <= |names|
        invariant FreeNames.BindAliases(old(State()), names) == FreeNames.BindAliases(State(), names[i..])
      {
        assert names[i..][1..] == names[i + 1..];
        var a := names[i];
        SetName(a.BoundName());
        i := i + 1;
      }
    }

    method VisitName(id: string, ctx: Context) returns (raised: Option<Exception>)
      modifies this, fakeNames
      ensures Reaches(FreeNames.VisitName(id, ctx, old(State())), raised, State())
    {
      raised := None;
      match ctx
      case Store => SetName(id);
      case Load => NoteRead(FromStr(id));
      case Del => raised := DeleteIfBound(id);
    }

    method VisitAttribute(value: Node, attr: string, ctx: Context) returns (raised: Option<Exception>)
      modifies this, fakeNames
      ensures Reaches(FreeNames.VisitAttribute(value, attr, ctx, old(State())), raised, State())
    {
      raised := None;
      var flat := FreeNames.FlattenAttribute(value, attr);
      if flat.Raise? {
        return Some(flat.exception);
      }
      if flat.value.None? {
        return;
      }
      var attrName := flat.value.value;
      match ctx
      case Load => NoteRead(FromStr(attrName));
      case Store => SetName(attrName);
      case Del => raised := DeleteIfBound(attrName);
    }

    method HandleAnnotation(annotation: Node) returns (raised: Option<Exception>)
      modifies fakeNames
      ensures Reaches(FreeNames.HandleAnnotation(annotation, old(State())), raised, State())
    {
      raised := None;
      var returnName: Option<string> := None;
      match annotation {
        case Attribute(value, attr, _) =>
          var flat := FreeNames.FlattenAttribute(value, attr);
          if flat.Raise? {
            return Some(flat.exception);
          }
          returnName := flat.value;
        case Constant(StrValue(s)) =>
          returnName := Some(s);
        case Constant(OtherValue) =>
          return Some(AttributeError("rsplit"));
        case _ =>
      }
      if returnName.Some? {
        NoteRead(FromStr(returnName.value));
      }
    }

    /** Bind every identifier of a target, in order. */
    method BindTargets(ids: seq<string>)
      modifies this
      ensures State() == FreeNames.BindAll(old(State()), ids)
    {
      var i := 0;
      while i < |ids|
        invariant i <= |ids|
        invariant FreeNames.BindAll(old(State()), ids) == FreeNames.BindAll(State(), ids[i..])
      {
        assert ids[i..][1..] == ids[i + 1..];
        SetName(ids[i]);
        i := i + 1;
      }
    }

    /** The loop over `args.args`: bind each parameter, then read its annotation. */
    method BindArgs(args: seq<Arg>) returns (raised: Option<Exception>)
      modifies this, fakeNames
      ensures Reaches(FreeNames.BindArgs(args, old(State())), raised, State())
    {
      var i := 0;
      while i < |args|
        invariant i <= |args|
        invariant FreeNames.BindArgs(args, old(State())) == FreeNames.BindArgs(args[i..], State())
      {
        assert args[i..][1..] == args[i + 1..];
        raised := BindArg(args[i]);
        if raised.Some? {
          return;
        }
        i := i + 1;
      }
      raised := None;
    }

    /** One round of that loop. */
    method BindArg(a: Arg) returns (raised: Option<Exception>)
      modifies this, fakeNames
      ensures Reaches(FreeNames.BindArg(a, old(State())), raised, State())
    {
      SetName(a.arg);
      raised := None;
      if a.annotation.Some? {
        raised := HandleAnnotation(a.annotation.value);
      }
    }

    /**
     * The steps of `visit_FunctionDef` before `generic_visit`: the return
     * annotation, the name, the new frame and the parameters.
     */
    method EnterFunction(name: Option<string>, args: Arguments, returnAnnotation: Option<Node>)
      returns (raised: Option<Exception>)
      modifies this, fakeNames
      ensures Reaches(FreeNames.EnterFunction(name, args, returnAnnotation, old(State())), raised, State())
    {
      raised := None;
      if returnAnnotation.Some? {
        raised := HandleAnnotation(returnAnnotation.value);
        if raised.Some? {
          return;
        }
      }
      if name.Some? {
        SetName(name.value);
      }
      PushCtx();
      raised := BindArgs(args.args);
      if raised.Some? {
        return;
      }
      if args.vararg.Some? {
        SetName(args.vararg.value.arg);
      }
      if args.kwarg.Some? {
        SetName(args.kwarg.value.arg);
      }
    }

    /** `visit_FunctionDef`, which `visit_AsyncFunctionDef` and `visit_Lambda` call. */
    method VisitFunctionDef(n: Node) returns (raised: Option<Exception>)
      requires n.FunctionDef? || n.Lambda?
      modifies this, fakeNames
      decreases Count(n), 1
      ensures Reaches(FreeNames.Visit(n, old(State())), raised, State())
    {
      if n.FunctionDef? {
        raised := EnterFunction(Some(n.name), n.args, n.returnAnnotation);
      } else {
        raised := EnterFunction(None, n.args, None);
      }
      if raised.Some? {
        return;
      }
      raised := GenericVisit(n);
      if raised.Some? {
        return;
      }
      PopCtx();
    }

    method VisitClassDef(n: Node) returns (raised: Option<Exception>)
      requires n.ClassDef?
      modifies this, fakeNames
      decreases Count(n), 1
      ensures Reaches(FreeNames.Visit(n, old(State())), raised, State())
    {
      SetName(n.name);
      PushCtx();
      raised := GenericVisit(n);
      if raised.Some? {
        return;
      }
      PopCtx();
    }

    /** `visit_ListComp`, which the dict, set and generator visitors call. */
    method VisitListComp(n: Node) returns (raised: Option<Exception>)
      requires n.Comp?
      modifies this, fakeNames
      decreases Count(n), 1
      ensures Reaches(FreeNames.Visit(n, old(State())), raised, State())
    {
      PushCtx();
      ghost var pushed := State();
      var gens := n.generators;
      var i := 0;
      while i < |gens|
        invariant i <= |gens|
        invariant FreeNames.BindGenerators(gens, pushed) == FreeNames.BindGenerators(gens[i..], State())
      {
        assert gens[i..][1..] == gens[i + 1..];
        var ids := FreeNames.TargetIds(gens[i].target);
        if ids.Raise? {
          return Some(ids.exception);
        }
        BindTargets(ids.value);
        i := i + 1;
      }
      raised := GenericVisit(n);
      if raised.Some? {
        return;
      }
      PopCtx();
    }

    /** `visit_For`: the targets are bound in the current frame; no frame is pushed. */
    method VisitFor(n: Node) returns (raised: Option<Exception>)
      requires n.For?
      modifies this, fakeNames
      decreases Count(n), 1
      ensures Reaches(FreeNames.Visit(n, old(State())), raised, State())
    {
      var ids := FreeNames.TargetIds(n.target);
      if ids.Raise? {
        return Some(ids.exception);
      }
      BindTargets(ids.value);
      raised := GenericVisit(n);
    }

    method VisitExceptHandler(n: Node) returns (raised: Option<Exception>)
      requires n.ExceptHandler?
      modifies this, fakeNames
      decreases Count(n), 1
      ensures Reaches(FreeNames.Visit(n, old(State())), raised, State())
    {
      PushCtx();
      if n.BindsHandlerName() {
        SetName(n.handlerName.value);
      }
      raised := GenericVisit(n);
      if raised.Some? {
        return;
      }
      PopCtx();
    }

    /** `generic_visit`: visit the children in field order. */
    method GenericVisit(n: Node) returns (raised: Option<Exception>)
      modifies this, fakeNames
      decreases Count(n), 0
      ensures Reaches(FreeNames.VisitAll(Children(n), old(State())), raised, State())
    {
      ChildrenCount(n);
      raised := VisitChildren(Children(n));
    }

    /** The loop of `generic_visit`, stopping at the first exception. */
    method VisitChildren(children: seq<Node>) returns (raised: Option<Exception>)
      modifies this, fakeNames
      decreases CountAll(children), 3
      ensures Reaches(FreeNames.VisitAll(children, old(State())), raised, State())
    {
      var i := 0;
      while i < |children|
        invariant i <= |children|
        invariant FreeNames.VisitAll(children, old(State())) == FreeNames.VisitAll(children[i..], State())
      {
        assert children[i..][1..] == children[i + 1..];
        CountAllAt(children, i);
        raised := Visit(children[i]);
        if raised.Some? {
          return;
        }
        i := i + 1;
      }
      raised := None;
    }

    /** `visit`: dispatch on the node kind. */
    method Visit(n: Node) returns (raised: Option<Exception>)
      modifies this, fakeNames
      decreases Count(n), 2
      ensures Reaches(FreeNames.Visit(n, old(State())), raised, State())
    {
      match n
      case NameExpr(id, ctx) => raised := VisitName(id, ctx);
      case Attribute(value, attr, ctx) => raised := VisitAttribute(value, attr, ctx);
      case FunctionDef(_, _, _, _, _, _) => raised := VisitFunctionDef(n);
      case Lambda(_, _) => raised := VisitFunctionDef(n);
      case ClassDef(_, _, _, _, _) => raised := VisitClassDef(n);
      case Comp(_, _, _) => raised := VisitListComp(n);
      case For(_, _, _, _) => raised := VisitFor(n);
      case ExceptHandler(_, _, _) => raised := VisitExceptHandler(n);
      case Import(names) => VisitImport(names); raised := None;
      case ImportFrom(_, names) => VisitImport(names); raised := None;
      case _ => raised := GenericVisit(n);
    }
  }

  /** `parse_names(tree)`. */
  method ParseNames(tree: Node, builtins: set<string>) returns (r: Result<seq<Name>>)
    ensures r == FreeNames.Parse(tree, builtins)
  {
    var visitor := new NameVisitor(builtins);
    var raised := visitor.Visit(tree);
    if raised.Some? {
      return Raise(raised.value);
    }
    return Ok(visitor.fakeNames.names);
  }

  /** `parse_names(tree)` followed by a final `filter_fake_names`. */
  method ParseNamesResolved(tree: Node, builtins: set<string>) returns (r: Result<seq<Name>>)
    ensures r == FreeNames.ParseResolved(tree, builtins)
  {
    var visitor := new NameVisitor(builtins);
    var raised := visitor.Visit(tree);
    if raised.Some? {
      return Raise(raised.value);
    }
    visitor.FilterFakeNames();
    return Ok(visitor.fakeNames.names);
  }
}

=== FILE: scopes.dfy ===
/**
 * The visitor's `real_names`: a `collections.ChainMap` of binding maps.
 * Only the keys matter to the analysis, so each map is the set of its keys
 * (of type `K`: identifiers, or identifiers and `None` in the older variant).
 * The innermost map is the LAST element of the sequence.
 */
module Scopes {
  import opened Wrappers

  /** A ChainMap always holds at least one map. */
  type Chain<K(==)> = maps: seq<set<K>> | |maps| > 0 witness [{}]

  /** The keys `in` sees: those of every map in the chain. */
  function Keys<K(!new)>(maps: seq<set<K>>): (keys: set<K>)
    ensures forall k :: k in keys <==> exists i :: 0 <= i < |maps| && k in maps[i]
  {
    if maps == [] then {} else Keys(maps[..|maps| - 1]) + maps[|maps| - 1]
  }

  /** The innermost map, `chain.maps[0]`. */
  function Top<K>(c: Chain<K>): set<K> {
    c[|c| - 1]
  }

  /** The maps enclosing the innermost one. */
  function Outer<K>(c: Chain<K>): seq<set<K>> {
    c[..|c| - 1]
  }

  /** `chain[key] = value` writes into the innermost map only. */
  function Bind<K(!new)>(c: Chain<K>, key: K): (r: Chain<K>)
    ensures Outer(r) == Outer(c) && key in Top(r) && Top(c) <= Top(r)
    ensures Keys(r) == Keys(c) + {key}
  {
    var r := Outer(c) + [Top(c) + {key}];
    assert Outer(r) == Outer(c);
    r
  }

  /** `del chain[key]` removes from the innermost map, or raises `KeyError`. */
  function Delete<K>(c: Chain<K>, key: K): (r: Result<Chain<K>>)
    ensures r.Ok? <==> key in Top(c)
    ensures r.Raise? ==> r.exception == KeyError
    ensures r.Ok? ==> Outer(r.value) == Outer(c) && Top(r.value) == Top(c) - {key}
  {
    if key in Top(c) then
      var r := Outer(c) + [Top(c) - {key}];
      assert Outer(r) == Outer(c);
      Ok(r)
    else Raise(KeyError)
  }

  /** `chain.new_child()`: a new empty innermost map. */
  function NewChild<K(!new)>(c: Chain<K>): (r: Chain<K>)
    ensures Outer(r) == c && Top(r) == {}
    ensures Keys(r) == Keys(c)
  {
    var r := c + [{}];
    assert Outer(r) == c;
    r
  }

  /** `chain.parents`: the chain without its innermost map (one empty map if none is left). */
  function Parents<K>(c: Chain<K>): Chain<K> {
    if |c| == 1 then [{}] else Outer(c)
  }
}

=== FILE: symbols.dfy ===
/**
 * The symbol model of `no_more_imports.ast`: a `Name` is one external
 * reference (a module path, an optional member and the bare spellings it
 * was also read under), and a `NameCollection` is the ordered list of them.
 */
module Symbols {
  import opened Wrappers
  import opened Dotted

  /** `Name(module, name, aliases)`; `module` is a keyword here, hence `modulePath`. */
  datatype Name = Name(modulePath: string, member: Option<string>, aliases: set<string>) {

    /** Python truthiness of the member: absent and "" both count as no member. */
    predicate HasMember() {
      member.Some? && member.value != ""
    }

    /** The fully qualified id: the module path, then the member after a dot. */
    function Id(): string {
      if member.None? then modulePath else modulePath + [Dot] + member.value
    }

    /** `item in name`: an alias, the member, or the dotted id. */
    predicate Contains(item: string) {
      item in aliases || (if member.None? then item == modulePath else item == member.value || item == Id())
    }

    /** The dotted segments `parts` is built from. */
    function Segments(): seq<string> {
      Split(modulePath, Dot) + (if HasMember() then [member.value] else [])
    }

    /** Every dotted prefix of the id, shortest first. */
    function Parts(): (ps: seq<string>)
      ensures |ps| == |Split(modulePath, Dot)| + (if HasMember() then 1 else 0)
      ensures forall i :: 0 < i < |ps| ==> ps[i - 1] <= ps[i]
    {
      var segs := Segments();
      PrefixesGrowByOneSegment(segs);
      Prefixes(segs)
    }

    /** Some prefix of the id is among `keys`. */
    predicate InDict(keys: set<string>) {
      exists p :: p in Parts() && p in keys
    }
  }

  /** `[".".join(segs[:i + 1]) for i in range(len(segs))]`. */
  function Prefixes(segs: seq<string>): seq<string> {
    seq(|segs|, i requires 0 <= i < |segs| => Join(segs[..i + 1], Dot))
  }

  /** Each prefix is the one before it, a dot and the next segment. */
  lemma PrefixesGrowByOneSegment(segs: seq<string>)
    ensures forall i :: 0 < i < |segs| ==> Prefixes(segs)[i] == Prefixes(segs)[i - 1] + [Dot] + segs[i]
    ensures forall i :: 0 < i < |segs| ==> Prefixes(segs)[i - 1] <= Prefixes(segs)[i]
  {
    var ps := Prefixes(segs);
    forall i | 0 < i < |segs| ensures ps[i] == ps[i - 1] + [Dot] + segs[i] && ps[i - 1] <= ps[i] {
      PrefixesAt(segs, i - 1);
      PrefixesAt(segs, i);
      var before, upto := segs[..i], segs[..i + 1];
      assert upto == before + [segs[i]];
      JoinSnoc(before, segs[i], Dot);
    }
  }

  /** `p` is `s` itself, or a prefix of `s` that stops just before a dot. */
  predicate IsDottedPrefix(p: string, s: string) {
    p <= s && (|p| == |s| || s[|p|] == Dot)
  }

  /** `Name.from_str`: split at the last dot only. */
  function FromStr(s: string): (n: Name)
    ensures n.aliases == {}
    ensures n.Id() == s
    ensures n.member.None? <==> Dot !in s
    ensures n.member.Some? ==> Dot !in n.member.value
  {
    match LastIndexOf(s, Dot)
    case None => Name(s, None, {})
    case Some(k) =>
      assert s == s[..k] + [Dot] + s[k + 1..];
      Name(s[..k], Some(s[k + 1..]), {})
  }

  /**
   * `in` matches the string a name was built from: a dotless string is the
   * module, and a dotted one is the id.
   */
  lemma FromStrContainsItself(s: string)
    ensures FromStr(s).Contains(s)
  {
    var n := FromStr(s);
    assert n.Id() == s;
  }

  /**
   * `from_str` splits at the last dot: whatever precedes a final dot-free
   * segment is the module path, that segment the member.
   */
  lemma FromStrSplitsAtLastDot(path: string, last: string)
    requires Dot !in last
    ensures FromStr(path + [Dot] + last) == Name(path, Some(last), {})
  {
    var s := path + [Dot] + last;
    var n := FromStr(s);
    assert s[|path|] == Dot;
    var m := n.member.value;
    assert n.modulePath + [Dot] + m == s;
    assert m == s[|s| - |m|..] == last;
  }

  /** The prefixes of a join of dot-free segments are exactly its dotted prefixes. */
  lemma {:induction false} PrefixesAreDottedPrefixes(segs: seq<string>)
    requires |segs| >= 1
    requires forall i :: 0 <= i < |segs| ==> Dot !in segs[i]
    ensures forall p :: p in Prefixes(segs) <==> IsDottedPrefix(p, Join(segs, Dot))
  {
    var s := Join(segs, Dot);
    if |segs| == 1 {
      assert Prefixes(segs) == [segs[0]];
      forall p | IsDottedPrefix(p, s) ensures p == s { }
    } else {
      var ps, x := segs[..|segs| - 1], segs[|segs| - 1];
      assert segs == ps + [x];
      PrefixesAreDottedPrefixes(ps);
      JoinSnoc(ps, x, Dot);
      PrefixesSnoc(ps, x);
      forall p ensures IsDottedPrefix(p, s) <==> IsDottedPrefix(p, Join(ps, Dot)) || p == s {
        DottedPrefixSnoc(p, Join(ps, Dot), x);
      }
    }
  }

  /** One more segment adds one more prefix, the whole join. */
  lemma PrefixesSnoc(ps: seq<string>, x: string)
    ensures Prefixes(ps + [x]) == Prefixes(ps) + [Join(ps + [x], Dot)]
  {
    var segs := ps + [x];
    forall i | 0 <= i < |ps| ensures Prefixes(segs)[i] == Prefixes(ps)[i] {
      assert segs[..i + 1] == ps[..i + 1];
    }
    assert segs[..|segs|] == segs;
  }

  /** The dotted prefixes of `t.x`, for a dot-free `x`, are those of `t` and `t.x` itself. */
  lemma DottedPrefixSnoc(p: string, t: string, x: string)
    requires Dot !in x
    ensures IsDottedPrefix(p, t + [Dot] + x) <==> IsDottedPrefix(p, t) || p == t + [Dot] + x
  {
    var s := t + [Dot] + x;
    if IsDottedPrefix(p, t) {
      assert p <= s;
      if |p| < |t| {
        assert s[|p|] == t[|p|];
      } else {
        assert s[|p|] == Dot;
      }
    }
    if IsDottedPrefix(p, s) && p != s {
      if |p| > |t| {
        assert false;
      }
      assert p <= t;
      if |p| < |t| {
        assert s[|p|] == t[|p|];
      }
    }
  }

  /**
   * For a name whose member is absent or a non-empty dot-free segment,
   * `in_dict` asks whether any dotted prefix of the id is bound: `a.b.c`
   * counts as bound when `a`, `a.b` or `a.b.c` is.
   */
  lemma InDictMeansDottedPrefixBound(n: Name, keys: set<string>)
    requires n.member.None? || (n.HasMember() && Dot !in n.member.value)
    ensures n.Parts() != [] && n.Parts()[|n.Parts()| - 1] == n.Id()
    ensures n.InDict(keys) <==> exists p :: IsDottedPrefix(p, n.Id()) && p in keys
  {
    SegmentsJoinToId(n);
    SomePrefixBound(n.Segments(), keys);
  }

  /** Some prefix of a join of dot-free segments is bound iff some dotted prefix of it is. */
  lemma SomePrefixBound(segs: seq<string>, keys: set<string>)
    requires |segs| >= 1
    requires forall i :: 0 <= i < |segs| ==> Dot !in segs[i]
    ensures Prefixes(segs)[|segs| - 1] == Join(segs, Dot)
    ensures (exists p :: p in Prefixes(segs) && p in keys)
      <==> exists p :: IsDottedPrefix(p, Join(segs, Dot)) && p in keys
  {
    PrefixesLast(segs);
    PrefixesAreDottedPrefixes(segs);
    SomeMemberBound(Prefixes(segs), Join(segs, Dot), keys);
  }

  /** The last prefix is the whole join. */
  lemma PrefixesLast(segs: seq<string>)
    requires |segs| >= 1
    ensures Prefixes(segs)[|segs| - 1] == Join(segs, Dot)
  {
    var k := |segs| - 1;
    PrefixesAt(segs, k);
    var whole := segs[..k + 1];
    assert whole == segs;
  }

  lemma PrefixesAt(segs: seq<string>, i: nat)
    requires i < |segs|
    ensures Prefixes(segs)[i] == Join(segs[..i + 1], Dot)
  {
  }

  /** Membership of `ps` is being a dotted prefix of `id`, so both sides see the same bound keys. */
  lemma SomeMemberBound(ps: seq<string>, id: string, keys: set<string>)
    requires forall p :: p in ps <==> IsDottedPrefix(p, id)
    ensures (exists p :: p in ps && p in keys) <==> exists p :: IsDottedPrefix(p, id) && p in keys
  {
    if p :| p in ps && p in keys {
      assert IsDottedPrefix(p, id);
    }
    if p :| IsDottedPrefix(p, id) && p in keys {
      assert p in ps;
    }
  }

  /** The segments are dot-free and join back to the id. */
  lemma SegmentsJoinToId(n: Name)
    requires n.member.None? || (n.HasMember() && Dot !in n.member.value)
    ensures |n.Segments()| >= 1
    ensures forall i :: 0 <= i < |n.Segments()| ==> Dot !in n.Segments()[i]
    ensures Join(n.Segments(), Dot) == n.Id()
  {
    var split := Split(n.modulePath, Dot);
    if n.HasMember() {
      JoinSnoc(split, n.member.value, Dot);
    } else {
      assert n.Segments() == split;
    }
  }

  /** `new_name` is a bare read of a member some entry already has. */
  predicate IsAliasOf(newName: Name, entry: Name) {
    !newName.HasMember() && entry.member == Some(newName.modulePath)
  }

  /** The entry `add` stops at. */
  predicate Stops(newName: Name, entry: Name) {
    IsAliasOf(newName, entry) || entry.modulePath == newName.modulePath
  }

  /** `entry` with `alias` added to its aliases. */
  function WithAlias(entry: Name, alias: string): Name {
    entry.(aliases := entry.aliases + {alias})
  }

  /** The list `NameCollection.add` leaves behind. */
  function Added(names: seq<Name>, newName: Name): (r: seq<Name>)
    ensures |r| == |names| || |r| == |names| + 1
    ensures forall i :: 0 <= i < |names| ==>
      r[i].modulePath == names[i].modulePath && r[i].member == names[i].member &&
      names[i].aliases <= r[i].aliases
    ensures |r| == |names| + 1 ==>
      r[|names|] == newName && forall i :: 0 <= i < |names| ==> !Stops(newName, names[i])
  {
    if names == [] then [newName]
    else if IsAliasOf(newName, names[0]) then [WithAlias(names[0], newName.modulePath)] + names[1..]
    else if names[0].modulePath == newName.modulePath then names
    else [names[0]] + Added(names[1..], newName)
  }

  /** No two entries share a module path. */
  predicate DistinctModules(names: seq<Name>) {
    forall i, j :: 0 <= i < j < |names| ==> names[i].modulePath != names[j].modulePath
  }

  /**
   * `add` scans in list order and acts at the first entry it stops at: an
   * alias hit adds the module string to that entry's aliases, a module hit
   * changes nothing; with no such entry the name is appended.
   */
  lemma {:induction false} AddedActsAtFirstStop(names: seq<Name>, newName: Name, k: nat)
    requires k <= |names|
    requires forall i :: 0 <= i < k ==> !Stops(newName, names[i])
    requires k < |names| ==> Stops(newName, names[k])
    ensures k == |names| ==> Added(names, newName) == names + [newName]
    ensures k < |names| && IsAliasOf(newName, names[k]) ==>
      Added(names, newName) == names[k := WithAlias(names[k], newName.modulePath)]
    ensures k < |names| && !IsAliasOf(newName, names[k]) ==> Added(names, newName) == names
  {
    if k > 0 {
      var rest := names[1..];
      assert !Stops(newName, names[0]);
      assert Added(names, newName) == [names[0]] + Added(rest, newName);
      AddedActsAtFirstStop(rest, newName, k - 1);
      assert names == [names[0]] + rest;
      if k < |names| && IsAliasOf(newName, names[k]) {
        var e := WithAlias(names[k], newName.modulePath);
        assert [names[0]] + rest[k - 1 := e] == names[k := e];
      }
    }
  }

  /** `add` never gives two entries the same module path. */
  lemma AddedKeepsModulesDistinct(names: seq<Name>, newName: Name)
    requires DistinctModules(names)
    ensures DistinctModules(Added(names, newName))
  {
  }

  /** `NameCollection`: the ordered list of names still to be imported. */
  class NameCollection {
    var names: seq<Name>

    constructor ()
      ensures names == []
    {
      names := [];
    }

    /** `NameCollection.add(new_name)`. */
    method Add(newName: Name)
      modifies this
      ensures names == Added(old(names), newName)
    {
      var i := 0;
      while i < |names|
        invariant i <= |names| && names == old(names)
        invariant forall j :: 0 <= j < i ==> !Stops(newName, names[j])
      {
        if IsAliasOf(newName, names[i]) {
          AddedActsAtFirstStop(names, newName, i);
          names := names[i := WithAlias(names[i], newName.modulePath)];
          return;
        } else if newName.modulePath == names[i].modulePath {
          AddedActsAtFirstStop(names, newName, i);
          return;
        }
        i := i + 1;
      }
      AddedActsAtFirstStop(names, newName, i);
      names := names + [newName];
    }
  }
}

=== FILE: syntax.dfy ===
/**
 * The part of Python's abstract syntax the free-name analysis dispatches on.
 * Every other node kind is a `Generic` node holding its child nodes in field
 * order; a `keyword` is represented by its value.
 */
module Syntax {
  import opened Wrappers

  datatype Context = Load | Store | Del

  /** The value of a `Constant`: a string, `None`, or anything else. */
  datatype ConstValue = StrValue(s: string) | NoneValue | OtherValue

  datatype CompKind = ListComp | SetComp | GeneratorExp | DictComp

  /** `alias(name, asname)` of an import statement. */
  datatype Alias = Alias(name: string, asname: Option<string>) {

    /** `alias.asname if alias.asname else alias.name`: an empty `asname` counts as none. */
    function BoundName(): string {
      if asname.Some? && asname.value != "" then asname.value else name
    }
  }

  /** `arg(arg, annotation)`. */
  datatype Arg = Arg(arg: string, annotation: Option<Node>)

  /** `arguments(posonlyargs, args, vararg, kwonlyargs, kw_defaults, kwarg, defaults)`. */
  datatype Arguments = Arguments(
    posonlyargs: seq<Arg>, args: seq<Arg>, vararg: Option<Arg>,
    kwonlyargs: seq<Arg>, kwDefaults: seq<Node>, kwarg: Option<Arg>, defaults: seq<Node>)

  /** `comprehension(target, iter, ifs)`. */
  datatype Comprehension = Comprehension(target: Node, iter: Node, ifs: seq<Node>)

  datatype Node =
    | NameExpr(id: string, ctx: Context)
    | Attribute(value: Node, attr: string, ctx: Context)
    | Call(func: Node, callArgs: seq<Node>, keywords: seq<Node>)
    | Constant(literal: ConstValue)
    | Tuple(elts: seq<Node>, ctx: Context)
      /** `FunctionDef`, or `AsyncFunctionDef` when `isAsync`. */
    | FunctionDef(name: string, args: Arguments, body: seq<Node>, decoratorList: seq<Node>,
                  returnAnnotation: Option<Node>, isAsync: bool)
    | Lambda(args: Arguments, expr: Node)
    | ClassDef(name: string, bases: seq<Node>, keywords: seq<Node>, body: seq<Node>,
               decoratorList: seq<Node>)
      /** `ListComp`, `SetComp`, `GeneratorExp` (`elts` is `[elt]`) or `DictComp` (`[key, value]`). */
    | Comp(kind: CompKind, elts: seq<Node>, generators: seq<Comprehension>)
    | For(target: Node, iter: Node, body: seq<Node>, orelse: seq<Node>)
    | ExceptHandler(exceptType: Option<Node>, handlerName: Option<string>, body: seq<Node>)
    | Import(names: seq<Alias>)
    | ImportFrom(fromModule: Option<string>, names: seq<Alias>)
    | Return(result: Option<Node>)
    | Generic(children: seq<Node>)
  {
    /** `if node.name:` in `visit_ExceptHandler`: an empty name binds nothing. */
    predicate BindsHandlerName()
      requires ExceptHandler?
    {
      handlerName.Some? && handlerName.value != ""
    }
  }

  function OptNodes(o: Option<Node>): seq<Node> {
    if o.Some? then [o.value] else []
  }

  /** The annotations under a list of `arg` nodes, in order. */
  function Annotations(args: seq<Arg>): seq<Node> {
    if args == [] then [] else OptNodes(args[0].annotation) + Annotations(args[1..])
  }

  function OptArg(o: Option<Arg>): seq<Arg> {
    if o.Some? then [o.value] else []
  }

  /** What `generic_visit` reaches under an `arguments` node, in field order. */
  function ArgumentsChildren(a: Arguments): seq<Node> {
    Annotations(a.posonlyargs) + Annotations(a.args) + Annotations(OptArg(a.vararg))
    + Annotations(a.kwonlyargs) + a.kwDefaults + Annotations(OptArg(a.kwarg)) + a.defaults
  }

  /** What `generic_visit` reaches under a list of `comprehension` nodes, in field order. */
  function GeneratorsChildren(gens: seq<Comprehension>): seq<Node> {
    if gens == [] then [] else [gens[0].target, gens[0].iter] + gens[0].ifs + GeneratorsChildren(gens[1..])
  }

  /**
   * The nodes `generic_visit(n)` visits, in field order. Nodes without a
   * visitor of their own (`arguments`, `arg`, `comprehension`, `keyword`,
   * contexts) are replaced by what visiting them generically reaches.
   */
  function Children(n: Node): seq<Node> {
    match n
    case NameExpr(_, _) => []
    case Attribute(value, _, _) => [value]
    case Call(func, callArgs, keywords) => [func] + callArgs + keywords
    case Constant(_) => []
    case Tuple(elts, _) => elts
    case FunctionDef(_, args, body, decoratorList, returnAnnotation, _) =>
      ArgumentsChildren(args) + body + decoratorList + OptNodes(returnAnnotation)
    case Lambda(args, expr) => ArgumentsChildren(args) + [expr]
    case ClassDef(_, bases, keywords, body, decoratorList) => bases + keywords + body + decoratorList
    case Comp(_, elts, generators) => elts + GeneratorsChildren(generators)
    case For(target, iter, body, orelse) => [target, iter] + body + orelse
    case ExceptHandler(exceptType, _, body) => OptNodes(exceptType) + body
    case Import(_) => []
    case ImportFrom(_, _) => []
    case Return(result) => OptNodes(result)
    case Generic(children) => children
  }

  // Sizes, used only as a termination measure for the traversals.

  function Count(n: Node): nat {
    1 + match n
    case NameExpr(_, _) => 0
    case Attribute(value, _, _) => Count(value)
    case Call(func, callArgs, keywords) => Count(func) + CountAll(callArgs) + CountAll(keywords)
    case Constant(_) => 0
    case Tuple(elts, _) => CountAll(elts)
    case FunctionDef(_, args, body, decoratorList, returnAnnotation, _) =>
      CountArguments(args) + CountAll(body) + CountAll(decoratorList) + CountOpt(returnAnnotation)
    case Lambda(args, expr) => CountArguments(args) + Count(expr)
    case ClassDef(_, bases, keywords, body, decoratorList) =>
      CountAll(bases) + CountAll(keywords) + CountAll(body) + CountAll(decoratorList)
    case Comp(_, elts, generators) => CountAll(elts) + CountGenerators(generators)
    case For(target, iter, body, orelse) => Count(target) + Count(iter) + CountAll(body) + CountAll(orelse)
    case ExceptHandler(exceptType, _, body) => CountOpt(exceptType) + CountAll(body)
    case Import(_) => 0
    case ImportFrom(_, _) => 0
    case Return(result) => CountOpt(result)
    case Generic(children) => CountAll(children)
  }

  function CountAll(ns: seq<Node>): nat {
    if ns == [] then 0 else Count(ns[0]) + CountAll(ns[1..])
  }

  function CountOpt(o: Option<Node>): nat {
    if o.Some? then Count(o.value) else 0
  }

  function CountArgs(args: seq<Arg>): nat {
    if args == [] then 0 else CountOpt(args[0].annotation) + CountArgs(args[1..])
  }

  function CountOptArg(o: Option<Arg>): nat {
    if o.Some? then CountOpt(o.value.annotation) else 0
  }

  function CountArguments(a: Arguments): nat {
    CountArgs(a.posonlyargs) + CountArgs(a.args) + CountOptArg(a.vararg) + CountArgs(a.kwonlyargs)
    + CountAll(a.kwDefaults) + CountOptArg(a.kwarg) + CountAll(a.defaults)
  }

  function CountGenerators(gens: seq<Comprehension>): nat {
    if gens == [] then 0
    else Count(gens[0].target) + Count(gens[0].iter) + CountAll(gens[0].ifs) + CountGenerators(gens[1..])
  }

  /** One child is no larger than all of them together. */
  lemma {:induction false} CountAllAt(ns: seq<Node>, i: nat)
    requires i < |ns|
    ensures Count(ns[i]) <= CountAll(ns)
  {
    if i > 0 {
      CountAllAt(ns[1..], i - 1);
    }
  }

  lemma {:induction false} CountAllAppend(a: seq<Node>, b: seq<Node>)
    ensures CountAll(a + b) == CountAll(a) + CountAll(b)
  {
    if a != [] {
      assert (a + b)[1..] == a[1..] + b;
      CountAllAppend(a[1..], b);
    } else {
      assert a + b == b;
    }
  }

  lemma CountAllOpt(o: Option<Node>)
    ensures CountAll(OptNodes(o)) == CountOpt(o)
  {
    if o.Some? {
      assert OptNodes(o)[1..] == [];
    }
  }

  lemma {:induction false} CountAnnotations(args: seq<Arg>)
    ensures CountAll(Annotations(args)) == CountArgs(args)
  {
    if args != [] {
      CountAnnotations(args[1..]);
      CountAllAppend(OptNodes(args[0].annotation), Annotations(args[1..]));
      CountAllOpt(args[0].annotation);
    }
  }

  lemma CountOptArgAnnotations(o: Option<Arg>)
    ensures CountAll(Annotations(OptArg(o))) == CountOptArg(o)
  {
    CountAnnotations(OptArg(o));
    if o.Some? {
      assert OptArg(o)[1..] == [];
    }
  }

  lemma CountArgumentsChildren(a: Arguments)
    ensures CountAll(ArgumentsChildren(a)) == CountArguments(a)
  {
    var p, q, v, k := Annotations(a.posonlyargs), Annotations(a.args),
                      Annotations(OptArg(a.vararg)), Annotations(a.kwonlyargs);
    var w := Annotations(OptArg(a.kwarg));
    CountAllAppend(p, q);
    CountAllAppend(p + q, v);
    CountAllAppend(p + q + v, k);
    CountAllAppend(p + q + v + k, a.kwDefaults);
    CountAllAppend(p + q + v + k + a.kwDefaults, w);
    CountAllAppend(p + q + v + k + a.kwDefaults + w, a.defaults);
    CountAnnotations(a.posonlyargs);
    CountAnnotations(a.args);
    CountAnnotations(a.kwonlyargs);
    CountOptArgAnnotations(a.vararg);
    CountOptArgAnnotations(a.kwarg);
  }

  lemma {:induction false} CountGeneratorsChildren(gens: seq<Comprehension>)
    ensures CountAll(GeneratorsChildren(gens)) == CountGenerators(gens)
  {
    if gens != [] {
      var g := gens[0];
      CountGeneratorsChildren(gens[1..]);
      CountAllAppend([g.target, g.iter], g.ifs);
      CountAllAppend([g.target, g.iter] + g.ifs, GeneratorsChildren(gens[1..]));
      assert [g.target, g.iter][1..] == [g.iter];
    }
  }

  /** The children of a node are smaller than the node. */
  lemma ChildrenCount(n: Node)
    ensures CountAll(Children(n)) == Count(n) - 1
  {
    match n
    case Call(func, callArgs, keywords) =>
      CountAllAppend3([func], callArgs, keywords);
      CountAllSingle(func);
    case Attribute(value, _, _) =>
      CountAllSingle(value);
    case FunctionDef(_, args, body, decoratorList, returnAnnotation, _) =>
      FunctionDefChildrenCount(args, body, decoratorList, returnAnnotation);
    case Lambda(args, expr) =>
      LambdaChildrenCount(args, expr);
    case ClassDef(_, bases, keywords, body, decoratorList) =>
      CountAllAppend4(bases, keywords, body, decoratorList);
    case Comp(_, elts, generators) =>
      CountAllAppend(elts, GeneratorsChildren(generators));
      CountGeneratorsChildren(generators);
    case For(target, iter, body, orelse) =>
      CountAllAppend3([target, iter], body, orelse);
      CountAllPair(target, iter);
    case ExceptHandler(exceptType, _, body) =>
      CountAllAppend(OptNodes(exceptType), body);
      CountAllOpt(exceptType);
    case Return(result) =>
      CountAllOpt(result);
    case _ =>
  }

  lemma CountAllSingle(a: Node)
    ensures CountAll([a]) == Count(a)
  {
    assert [a][1..] == [];
  }

  lemma CountAllAppend4(a: seq<Node>, b: seq<Node>, c: seq<Node>, d: seq<Node>)
    ensures CountAll(a + b + c + d) == CountAll(a) + CountAll(b) + CountAll(c) + CountAll(d)
  {
    CountAllAppend3(a, b, c);
    CountAllAppend(a + b + c, d);
  }

  lemma LambdaChildrenCount(args: Arguments, expr: Node)
    ensures CountAll(ArgumentsChildren(args) + [expr]) == CountArguments(args) + Count(expr)
  {
    CountAllAppend(ArgumentsChildren(args), [expr]);
    CountArgumentsChildren(args);
    CountAllSingle(expr);
  }

  lemma CountAllPair(a: Node, b: Node)
    ensures CountAll([a, b]) == Count(a) + Count(b)
  {
    assert [a, b][1..] == [b];
    assert [b][1..] == [];
    assert CountAll([b]) == Count(b) + CountAll([]);
  }

  lemma CountAllAppend3(a: seq<Node>, b: seq<Node>, c: seq<Node>)
    ensures CountAll(a + b + c) == CountAll(a) + CountAll(b) + CountAll(c)
  {
    CountAllAppend(a, b);
    CountAllAppend(a + b, c);
  }

  lemma FunctionDefChildrenCount(args: Arguments, body: seq<Node>, decoratorList: seq<Node>, returnAnnotation: Option<Node>)
    ensures CountAll(ArgumentsChildren(args) + body + decoratorList + OptNodes(returnAnnotation))
      == CountArguments(args) + CountAll(body) + CountAll(decoratorList) + CountOpt(returnAnnotation)
  {
    var a := ArgumentsChildren(args);
    CountAllAppend3(a, body, decoratorList);
    CountAllAppend(a + body + decoratorList, OptNodes(returnAnnotation));
    CountArgumentsChildren(args);
    CountAllOpt(returnAnnotation);
  }
}

=== FILE: wrappers.dfy ===
/** Optional values and Python-style outcomes shared by the whole model. */
module Wrappers {

  datatype Option<+T> = None | Some(value: T)

  /** The exceptions the analysis can raise while walking a tree. */
  datatype Exception =
    | KeyError                       // `del chain[key]` when key is not in the innermost map
    | AttributeError(attr: string)   // reading an attribute the node (or value) does not have
    | TypeError                      // `".".join([None, attr])`
    | ValueError                     // an unknown frontmatter mode

  /** The outcome of a Python call: a value, or a raised exception. */
  datatype Result<+T> = Ok(value: T) | Raise(exception: Exception) {

    predicate IsFailure() {
      Raise?
    }

    function PropagateFailure<U>(): Result<U>
      requires Raise?
    {
      Raise(exception)
    }

    function Extract(): T
      requires Ok?
    {
      value
    }
  }
}
